=== FILE: README.md ===
# JsonConverter streaming splitter, modelled in Dafny

`JsonConverter` is a `Flow.Processor<byte[], String>`. It receives a JSON body
as byte chunks of arbitrary size. The body is a single object `{...}` or an
array of objects `[{...},{...}]`. Every time a root-level object closes, the
converter sends that object's exact text downstream. This project models the
converter as a pure state machine and proves what it emits.

- `Converter` holds the converter's fields as an immutable record. It also
  holds one function per callback: `OnNext`, `OnError`, `OnComplete`, and
  their helpers `HandleNextBytes`, `OnEndObjectReached`,
  `InternalOnComplete` and `FireJsonError`. Each returns a `Reaction`, made
  of four parts:
  - the next state;
  - the signals sent downstream: items, one error, completion;
  - the signals sent upstream: `request(1)` or `cancel`;
  - the exception the callback throws, if any.
- `ByteBuffer` is the sliding buffer. It covers `addToByteBuffer` and
  `removeBytesFromBuffer`, and uses `parsedCharactersOffset` as the absolute
  position of the first buffered byte.
- `JavaArrays` models `Arrays.copyOfRange` with Java's semantics: zero
  padding, `IllegalArgumentException` and `ArrayIndexOutOfBoundsException`.
- `Nesting` covers the two `Level` counters, the start count of the pending
  object and `parsingCompleted`, advanced one lexer event at a time.
- `Events` stands in for the actson lexer. Within one `onNext`, the lexer is
  the list of pulls the feed/event loop draws. A pull is the number of bytes
  the feeder accepted, then the event `nextEvent` returned with the
  parsed-character count after it.
  - `Script` states the loop's protocol.
  - `TokensFit` states the lexer's promises about counts: monotone, never
    past the bytes fed, `{` and `}` right before the counts of their events.
    It also promises that an object's `{` never directly follows a `}`,
    which JSON grammar guarantees outside strings. The theorems need this:
    `removeBytesFromBuffer` drops one byte past each emitted object as a
    separator. If the next object's `{` came right after the `}`, that
    drop would discard it, and the next emission would read before the
    buffer; `Splitting.StartAfterOffset` rests on it.
- `Splitting` proves the main theorem against a reference that has no buffer,
  no offset and no chunks:
  - track the nesting over all tokens of the run;
  - cut every closed root object out of the complete byte stream by its
    absolute counts.

  For any chunking whose scripts a lexer could have produced, the converter
  sends exactly that, and the same demands. Independence from chunk
  boundaries, and the fact that emitted texts are `{`…`}` slices in stream
  order, follow from it.
- `Scenarios` works through concrete byte-exact runs: a single object, an
  array split inside its second object, a syntax error, an object holding an
  array, and a truncated array.

## Model

| member | source | states |
|---|---|---|
| JavaArrays.CopyOfRange | reactive-jaxrs/src/main/java/de/openknowledge/jaxrs/reactive/converter/JsonConverter.java:248 | succeeds exactly when 0 <= from <= to and from <= length; otherwise IllegalArgument (from > to) or IndexOutOfBounds; the copy has length to - from, equals the slice within bounds and is zero-padded past the end |
| ByteBuffer.AddToFixedBuffer | reactive-jaxrs/src/main/java/de/openknowledge/jaxrs/reactive/converter/JsonConverter.java:230-235 | the per-byte store loop into the fixed array, advancing the position before each store: it never resizes the array and throws nothing but IndexOutOfBounds |
| ByteBuffer.FixedAgreesWithAppend | reactive-jaxrs/src/main/java/de/openknowledge/jaxrs/reactive/converter/JsonConverter.java:230-235 | while the array's written prefix holds the buffered bytes, the loop succeeds exactly when buffered and new bytes fit in the slots, and then the prefix holds what the growable buffer holds; otherwise the array is filled with the chunk's first bytes and the position stands one past the end |
| ByteBuffer.StaysOverflowed | reactive-jaxrs/src/main/java/de/openknowledge/jaxrs/reactive/converter/JsonConverter.java:233 | once the position has passed the end, every later non-empty chunk throws again at its first byte and moves the position one further |
| ByteBuffer.FixedBufferOverflows | reactive-jaxrs/src/main/java/de/openknowledge/jaxrs/reactive/converter/JsonConverter.java:60 | any first chunk of 2049 bytes makes the fresh 2048-slot array throw, leaving the position at 2049 |
| ByteBuffer.UnconsumedChunksOverflow | reactive-jaxrs/src/main/java/de/openknowledge/jaxrs/reactive/converter/JsonConverter.java:60 | chunks that are not consumed overflow the fresh array on the chunk that takes them past 2048 bytes, however they are split: the first two fit and the third throws IndexOutOfBounds |
| ByteBuffer.Append | reactive-jaxrs/src/main/java/de/openknowledge/jaxrs/reactive/converter/JsonConverter.java:230-235 | appending keeps the buffered bytes as a prefix, puts the chunk after them in order, and leaves the offset alone |
| ByteBuffer.AppendExtendsWindow | reactive-jaxrs/src/main/java/de/openknowledge/jaxrs/reactive/converter/JsonConverter.java:30-39 | if offset + position equals the bytes appended so far and the buffer is their undiscarded suffix, the same holds after appending a chunk |
| ByteBuffer.Remove | reactive-jaxrs/src/main/java/de/openknowledge/jaxrs/reactive/converter/JsonConverter.java:241-253 | removing n bytes succeeds exactly when n is within the buffer, and otherwise throws IllegalArgument; it drops exactly n + 1 bytes when n + 1 < position and n bytes otherwise, keeps the rest in order, adds the dropped count to the offset and keeps offset + position unchanged |
| ByteBuffer.RemoveKeepsWindow | reactive-jaxrs/src/main/java/de/openknowledge/jaxrs/reactive/converter/JsonConverter.java:241-253 | removing a prefix from a buffer that is a window onto the stream leaves a window onto the same stream, with the offset grown by the dropped count |
| ByteBuffer.WindowSlice | reactive-jaxrs/src/main/java/de/openknowledge/jaxrs/reactive/converter/JsonConverter.java:215-218 | absolute positions, less the offset, index the buffer at the same bytes as the stream |
| Nesting.Track | reactive-jaxrs/src/main/java/de/openknowledge/jaxrs/reactive/converter/JsonConverter.java:162-201 | one lexer event: only ERROR fails; after completion nothing but ERROR has an effect. Before completion, START_OBJECT and END_OBJECT move the object counter up and down by one, START_ARRAY and END_ARRAY the array counter, and no other event moves either. An object closes exactly on an END_OBJECT at object depth 1, spanning from the recorded start to this count, so nested objects are never closed on their own. A START_OBJECT at object root records its count as the start, and the start changes on no other event. Parsing completes exactly when a root object closes outside arrays or the array level returns to root outside objects (corrected rule) |
| Nesting.TrackAsWritten | reactive-jaxrs/src/main/java/de/openknowledge/jaxrs/reactive/converter/JsonConverter.java:186-194 | the source's array-end rule: any END_ARRAY reaching array root completes parsing; it agrees with the corrected rule except for an array end inside an open object |
| Nesting.ArrayInsideObjectLostAsWritten | reactive-jaxrs/src/main/java/de/openknowledge/jaxrs/reactive/converter/JsonConverter.java:175-194 | inside the single root object, as written, closing an array completes parsing and the object's own end then closes nothing; with the corrected rule the object closes with its span and completes parsing |
| Nesting.TrackAll | reactive-jaxrs/src/main/java/de/openknowledge/jaxrs/reactive/converter/JsonConverter.java:151-204 | a run of events closes at most one root object per event, and fails only if some event of the run is an ERROR (the converse is `TrackAllFailsExactlyOnError`) |
| Nesting.TrackAllFailsExactlyOnError | reactive-jaxrs/src/main/java/de/openknowledge/jaxrs/reactive/converter/JsonConverter.java:162-201 | a run of events fails exactly when one of its events is an ERROR, even one arriving after parsing completed |
| Nesting.TrackAllAppend | reactive-jaxrs/src/main/java/de/openknowledge/jaxrs/reactive/converter/JsonConverter.java:151-204 | tracking two runs of events one after the other is tracking their concatenation; an error in the first run ends it |
| Nesting.TrackAllStructural | reactive-jaxrs/src/main/java/de/openknowledge/jaxrs/reactive/converter/JsonConverter.java:198-199 | NEED_MORE_INPUT and every non-structural event leave no trace: only the structural events decide the outcome |
| Nesting.SpansDelimited | reactive-jaxrs/src/main/java/de/openknowledge/jaxrs/reactive/converter/JsonConverter.java:169-184 | for events that fit the stream, every closed root object runs from a `{` to a later `}`, starts no earlier than the pending start, and the objects follow one another without overlap |
| Levels.MovesUndoEachOther | reactive-jaxrs/src/main/java/de/openknowledge/jaxrs/reactive/converter/JsonConverter.java:170-191 | increment and decrement of a nesting counter undo each other, and a counter at the root leaves it on either move, so it returns to the root only by a balancing move |
| Converter.FireJsonError | reactive-jaxrs/src/main/java/de/openknowledge/jaxrs/reactive/converter/JsonConverter.java:139-142 | a lexer error is passed downstream as the one syntax-error signal with nothing upstream; the converter is erred and its parser released, and it throws NullPointer exactly when the parser was already released; buffer and nesting are untouched |
| Converter.OnError | reactive-jaxrs/src/main/java/de/openknowledge/jaxrs/reactive/converter/JsonConverter.java:106-112 | marks the converter erred, passes the throwable downstream exactly once and releases the parser; a second release throws NullPointer; buffer, nesting and producer flag are untouched |
| Converter.InternalOnComplete | reactive-jaxrs/src/main/java/de/openknowledge/jaxrs/reactive/converter/JsonConverter.java:125-131 | completes downstream exactly when not erred, parsing and producer completed and the parser still open; asks nothing upstream |
| Converter.OnComplete | reactive-jaxrs/src/main/java/de/openknowledge/jaxrs/reactive/converter/JsonConverter.java:114-123 | records producer completion and leaves buffer, nesting and the error flag untouched; downstream gets onComplete exactly when not erred, parsing completed and the parser still open, and nothing otherwise, so a truncated stream gets neither completion nor error; nothing goes upstream |
| Converter.OnEndObjectReached | reactive-jaxrs/src/main/java/de/openknowledge/jaxrs/reactive/converter/JsonConverter.java:209-223 | no exception exactly when start - offset - 1 and end - offset lie within the buffered bytes in order; then the unit is the buffered bytes between them; an exception leaves the buffer as it was |
| Converter.Handle | reactive-jaxrs/src/main/java/de/openknowledge/jaxrs/reactive/converter/JsonConverter.java:160-201 | one event of the loop: an ERROR is the syntax-error path; any other event emits at most one item, never errs, and moves the nesting as `Track` says |
| Converter.Pump | reactive-jaxrs/src/main/java/de/openknowledge/jaxrs/reactive/converter/JsonConverter.java:151-204 | the feed/event loop asks nothing upstream; without error it sends only items; with error it ends on exactly one syntax error after the items, and some pulled event was an ERROR |
| Converter.HandleNextBytes | reactive-jaxrs/src/main/java/de/openknowledge/jaxrs/reactive/converter/JsonConverter.java:144-207 | handling a chunk sends items, then the syntax error last if the chunk erred; it never signals upstream |
| Converter.OnNext | reactive-jaxrs/src/main/java/de/openknowledge/jaxrs/reactive/converter/JsonConverter.java:82-104 | ignored once erred; throws once producer and parsing completed; otherwise cancels exactly when the chunk erred, requests exactly one chunk exactly when it did not and nothing was thrown, and the error, if any, is the last signal downstream |
| Splitting.StartAfterOffset | reactive-jaxrs/src/main/java/de/openknowledge/jaxrs/reactive/converter/JsonConverter.java:215 | a root object's start count always lies past the offset, so start - offset - 1 is never negative |
| Splitting.EmissionReadsStream | reactive-jaxrs/src/main/java/de/openknowledge/jaxrs/reactive/converter/JsonConverter.java:209-223 | when the object's `{` is still buffered and its `}` has been fed, the emission throws nothing, the unit is the object's text in the whole stream, and the buffer stays a window onto the stream |
| Splitting.CloseFollowsTrack | reactive-jaxrs/src/main/java/de/openknowledge/jaxrs/reactive/converter/JsonConverter.java:175-184 | an END_OBJECT returning to object root emits exactly the text of the object it closes and keeps the converter invariant |
| Splitting.StepFollowsTrack | reactive-jaxrs/src/main/java/de/openknowledge/jaxrs/reactive/converter/JsonConverter.java:162-200 | every event that closes no object emits nothing, or only the syntax error for ERROR, and keeps the invariant |
| Splitting.HandleFollowsTrack | reactive-jaxrs/src/main/java/de/openknowledge/jaxrs/reactive/converter/JsonConverter.java:160-201 | one event from an invariant state: no exception, the downstream signals are those of the reference, erred exactly on ERROR, and the invariant holds afterwards |
| Splitting.PumpFollowsTrack | reactive-jaxrs/src/main/java/de/openknowledge/jaxrs/reactive/converter/JsonConverter.java:151-204 | one chunk's loop sends downstream exactly the reference output of the chunk's events and leaves the nesting the reference reaches |
| Splitting.ApplyFollowsTrack | reactive-jaxrs/src/main/java/de/openknowledge/jaxrs/reactive/converter/JsonConverter.java:82-104 | one chunk from an invariant state: the reference output, then cancel after a syntax error or request(1) otherwise |
| Splitting.ErredIgnoresChunks | reactive-jaxrs/src/main/java/de/openknowledge/jaxrs/reactive/converter/JsonConverter.java:84-86 | once erred, any number of further chunks change nothing and signal nothing |
| Splitting.FailureIsFinal | reactive-jaxrs/src/main/java/de/openknowledge/jaxrs/reactive/converter/JsonConverter.java:106-112 | a publisher failure is passed downstream once, and later chunks are ignored without any request |
| Splitting.RunFollowsTrack | reactive-jaxrs/src/main/java/de/openknowledge/jaxrs/reactive/converter/JsonConverter.java:82-104 | a run of chunks from any invariant state sends the reference output and the reference demands; erred exactly when the events hold an error |
| Splitting.SplitterEmitsRootObjects | reactive-jaxrs/src/main/java/de/openknowledge/jaxrs/reactive/converter/JsonConverter.java:151-223 | for any chunking with lexer-consistent scripts, the converter throws nothing and emits exactly the text of every root object, in stream order, then the syntax error if any; it requests one chunk per chunk and cancels instead on the erring one |
| Splitting.UnitsAreRootObjects | reactive-jaxrs/src/main/java/de/openknowledge/jaxrs/reactive/converter/JsonConverter.java:209-223 | the emitted texts are stream slices from a `{` to a `}`, in stream order without overlap, and the only other signal is the syntax error, right after them, when the run erred |
| Splitting.ChunkBoundariesDoNotMatter | reactive-jaxrs/src/main/java/de/openknowledge/jaxrs/reactive/converter/JsonConverter.java:51-54 | two chunkings of the same bytes with the same structural events are answered with the same downstream signals |
| Splitting.CompleteStep | reactive-jaxrs/src/main/java/de/openknowledge/jaxrs/reactive/converter/JsonConverter.java:125-131 | the producer's completion after an error-free run signals nothing upstream and completes downstream exactly when parsing completed |
| Splitting.CompletionOnlyAfterParsing | reactive-jaxrs/src/main/java/de/openknowledge/jaxrs/reactive/converter/JsonConverter.java:114-131 | after a lexer-consistent run and the producer's completion: the reference output, then onComplete exactly when parsing completed without error; a truncated stream gets only items |
| Scenarios.SingleObjectInOneChunk | reactive-jaxrs/src/main/java/de/openknowledge/jaxrs/reactive/converter/JsonConverter.java:175-184 | `{"a":1}` in one chunk is emitted whole, one more chunk is requested, and completion follows |
| Scenarios.ArraySplitAcrossChunks | reactive-jaxrs/src/main/java/de/openknowledge/jaxrs/reactive/converter/JsonConverter.java:51-54 | `[{"a":1},{"b":2}]` split inside the second object: both objects are emitted whole and in order, with one request per chunk, then completion |
| Scenarios.SyntaxErrorCancels | reactive-jaxrs/src/main/java/de/openknowledge/jaxrs/reactive/converter/JsonConverter.java:92-97 | `{"a":}`: only the syntax error goes downstream and the subscription is cancelled instead of asking for more |
| Scenarios.ArrayInsideObjectEmitted | reactive-jaxrs/src/main/java/de/openknowledge/jaxrs/reactive/converter/JsonConverter.java:175-194 | `{"a":[1]}` with the corrected array rule: the object is emitted whole and downstream completes |
| Scenarios.TruncatedArrayNeverCompletes | reactive-jaxrs/src/main/java/de/openknowledge/jaxrs/reactive/converter/JsonConverter.java:125-131 | `[{"a":1}` followed by completion: the object is emitted, but downstream is neither completed nor failed |

## Left out

- ServletInputStreamPublisherAdapter, CustomerRepository, ReactiveCustomerResource and BufferedSubscriber are not part of this model. They are servlet I/O, file I/O, endpoint wiring and a test collector, with no algorithm of the converter in them.
- The actson `JsonParser` and `DefaultJsonFeeder` are not modelled. JSON grammar and how many bytes one `feed` accepts are replaced by the pulls the loop draws. The lexer's promises (`Script`, `TokensFit`, together `LexerConsistent`) are assumptions of the theorems, not consequences of a grammar.
- Splitting.UnitsAreRootObjects: states that every emitted text runs from a `{` to a `}` and that the texts are ordered. It does not state that each text is a balanced JSON object. That depends on the lexer's grammar, which is not modelled.
- Converter.Pump: when a script runs out of pulls before the loop's exit condition, the loop ends there. The Java loop would call `nextEvent` again. A script satisfying `Script` never runs out, and the theorems assume `Script`.
- Character decoding (`new String(bytes)` with the platform charset) is left out. Items carry the object's bytes; for ASCII text one byte is one character.
- Java `int` overflow of the counts, the offset and the buffer position at 2^31 is left out. They are unbounded naturals here.
- The `Level` class is not part of these sources. Each counter is an unbounded integer with increment, decrement and a root test, so an unmatched close drives it below zero.
- `subscribe`, `onSubscribe` and a missing (null) subscriber or subscription are left out. Signals to both are recorded in the `Reaction` instead of being delivered.
- `cleanup()` is reduced to a flag saying the parser was released. `feeder.done()` has no observable effect here. Using the released parser again is modelled as the NullPointerException it causes.
- ByteBuffer.Remove: takes its count as a natural. Its only caller passes the end index after `copyOfRange` on the same bounds succeeded, so a negative count cannot reach it.
- A run stops at the first exception a callback throws, since the exception propagates into the publisher. What the publisher does afterwards is not modelled.
- The converter model uses the corrected array-end rule and the growable buffer, as explained under Findings. The source's versions are kept beside them as `Nesting.TrackAsWritten` and `ByteBuffer.AddToFixedBuffer`.

## Findings

| source | as written | input that shows it | evidently intended | confidence | as-written member | corrected member |
|---|---|---|---|---|---|---|
| reactive-jaxrs/src/main/java/de/openknowledge/jaxrs/reactive/converter/JsonConverter.java:189-193 | an END_ARRAY that returns the array level to root sets `parsingCompleted`, even while the single root object is still open | `{"a":[1]}`: after `]` parsing counts as completed, so the object's `}` is ignored and the object is never emitted; since parsing counts as completed, the producer's completion then sends `onComplete` downstream with no item before it (this last step follows from `Converter.OnComplete`'s contract; the converter itself runs only the corrected rule) | an array end completes parsing only when no object is open, so the single object is emitted on its `}` | not executed; high | Nesting.ArrayInsideObjectLostAsWritten | Nesting.Track |
| reactive-jaxrs/src/main/java/de/openknowledge/jaxrs/reactive/converter/JsonConverter.java:60 | the buffer is one fixed array of 2048 bytes and `addToByteBuffer` writes past its end | a first chunk of 2049 bytes throws ArrayIndexOutOfBoundsException before any parsing; with the 1024-byte reads of `ServletInputStreamPublisherAdapter`, a body whose first root object is longer than 2048 bytes throws on the chunk that takes the unconsumed bytes past 2048 (the third, when reads are full), since nothing is consumed before that object closes | the buffer holds every unconsumed byte, however large the object or chunk | not executed; medium | ByteBuffer.UnconsumedChunksOverflow | ByteBuffer.Append |

=== FILE: byte_buffer.dfy ===
/**
  The sliding byte buffer of JsonConverter.java: the bytes
  `byteBuffer[0..byteBufferPosition]` not yet discarded, together with
  `parsedCharactersOffset`, the number of bytes discarded from the front so
  far.  `offset` is therefore the absolute stream position of `bytes[0]`.
*/
module ByteBuffer {
  import opened Wrappers
  import opened JavaArrays

  datatype Buffer = Buffer(bytes: seq<bv8>, offset: nat)

  /** The buffer of a fresh converter. */
  const Empty := Buffer([], 0)

  /** Capacity of the array the source allocates once, in its constructor. */
  const Capacity: nat := 2048

  /** The buffer holds exactly the undiscarded suffix of `stream`, the bytes
      appended so far: its offset plus its length is the stream length. */
  predicate Window(b: Buffer, stream: seq<bv8>) {
    && b.offset + |b.bytes| == |stream|
    && b.bytes == stream[b.offset..]
  }

  /** The source's own storage: the array allocated once, and
      `byteBufferPosition`, the next slot `addToByteBuffer` writes. */
  datatype FixedArray = FixedArray(slots: seq<bv8>, position: nat)

  /** The zero-filled 2048-slot array of a fresh converter. */
  const FreshArray := FixedArray(seq(Capacity, _ => 0 as bv8), 0)

  /** The array after `addToByteBuffer`, and the exception it threw, if any. */
  datatype Written = Written(after: FixedArray, thrown: Option<Exception>)

  /** `addToByteBuffer` as written: one byte at a time, the position is
      advanced and the byte stored at the old position; a store past the last
      slot throws, leaving the position already advanced. */
  function AddToFixedBuffer(a: FixedArray, chunk: seq<bv8>): (r: Written)
    ensures |r.after.slots| == |a.slots|
    ensures r.thrown.None? || r.thrown == Some(IndexOutOfBounds)
    decreases |chunk|
  {
    if chunk == [] then Written(a, None)
    else if a.position >= |a.slots| then Written(a.(position := a.position + 1), Some(IndexOutOfBounds))
    else AddToFixedBuffer(FixedArray(a.slots[a.position := chunk[0]], a.position + 1), chunk[1..])
  }

  /** The array's written prefix holds exactly the buffered bytes. */
  predicate Holds(a: FixedArray, b: Buffer) {
    a.position <= |a.slots| && a.slots[..a.position] == b.bytes
  }

  /** The fixed array behaves as the growable buffer as long as the bytes
      fit: it takes the chunk exactly when the buffered and new bytes fit in
      its slots, and then holds what `Append` holds.  Otherwise it is filled
      with the chunk's first bytes and the position stands one past the end. */
  lemma {:induction false} FixedAgreesWithAppend(a: FixedArray, b: Buffer, chunk: seq<bv8>)
    requires Holds(a, b)
    ensures AddToFixedBuffer(a, chunk).thrown.None? <==> |b.bytes| + |chunk| <= |a.slots|
    ensures AddToFixedBuffer(a, chunk).thrown.None? ==> Holds(AddToFixedBuffer(a, chunk).after, Append(b, chunk))
    ensures AddToFixedBuffer(a, chunk).thrown.Some? ==>
              && AddToFixedBuffer(a, chunk).after.position == |a.slots| + 1
              && AddToFixedBuffer(a, chunk).after.slots == b.bytes + chunk[..|a.slots| - |b.bytes|]
    decreases |chunk|
  {
    if chunk != [] {
      if a.position >= |a.slots| {
        assert a.slots == a.slots[..a.position];
        assert chunk[..0] == [];
      } else {
        var a' := FixedArray(a.slots[a.position := chunk[0]], a.position + 1);
        var b' := Buffer(b.bytes + [chunk[0]], b.offset);
        assert AddToFixedBuffer(a, chunk) == AddToFixedBuffer(a', chunk[1..]);
        StorePrefix(a.slots, a.position, chunk[0]);
        FixedAgreesWithAppend(a', b', chunk[1..]);
        ShiftFirst(b.bytes, chunk, |a.slots| - |b.bytes|);
      }
    }
  }

  /** Storing at slot `i` extends the prefix before it by that byte. */
  lemma StorePrefix(s: seq<bv8>, i: nat, x: bv8)
    requires i < |s|
    ensures s[i := x][..i + 1] == s[..i] + [x]
  {
  }

  /** Moving the first byte of a chunk onto the buffered bytes. */
  lemma ShiftFirst(bytes: seq<bv8>, chunk: seq<bv8>, k: nat)
    requires chunk != [] && 1 <= k
    ensures (bytes + [chunk[0]]) + chunk[1..] == bytes + chunk
    ensures k <= |chunk| ==> (bytes + [chunk[0]]) + chunk[1..][..k - 1] == bytes + chunk[..k]
  {
    assert chunk == [chunk[0]] + chunk[1..];
    if k <= |chunk| {
      assert chunk[..k] == [chunk[0]] + chunk[1..][..k - 1];
    }
  }

  /** Once the position has passed the end, every later non-empty chunk
      throws again at its first byte and moves the position one further. */
  lemma StaysOverflowed(a: FixedArray, chunk: seq<bv8>)
    requires a.position > |a.slots| && chunk != []
    ensures AddToFixedBuffer(a, chunk) == Written(a.(position := a.position + 1), Some(IndexOutOfBounds))
  {
  }

  /** A chunk of 2049 bytes overflows the fresh array, whatever the bytes. */
  lemma FixedBufferOverflows(chunk: seq<bv8>)
    requires |chunk| == Capacity + 1
    ensures AddToFixedBuffer(FreshArray, chunk).thrown == Some(IndexOutOfBounds)
    ensures AddToFixedBuffer(FreshArray, chunk).after.position == Capacity + 1
  {
    FixedAgreesWithAppend(FreshArray, Empty, chunk);
  }

  /** Chunks that close no object are not consumed, so the array overflows
      on the chunk that takes the unconsumed bytes past 2048, however the
      bytes were split: the first two chunks fit, the third throws. */
  lemma UnconsumedChunksOverflow(first: seq<bv8>, second: seq<bv8>, third: seq<bv8>)
    requires |first| + |second| <= Capacity < |first| + |second| + |third|
    ensures AddToFixedBuffer(FreshArray, first).thrown.None?
    ensures AddToFixedBuffer(AddToFixedBuffer(FreshArray, first).after, second).thrown.None?
    ensures AddToFixedBuffer(AddToFixedBuffer(AddToFixedBuffer(FreshArray, first).after, second).after, third).thrown
              == Some(IndexOutOfBounds)
  {
    var b1 := Append(Empty, first);
    FixedAgreesWithAppend(FreshArray, Empty, first);
    var w1 := AddToFixedBuffer(FreshArray, first);
    FixedAgreesWithAppend(w1.after, b1, second);
    var w2 := AddToFixedBuffer(w1.after, second);
    FixedAgreesWithAppend(w2.after, Append(b1, second), third);
  }

  /** `addToByteBuffer` into a buffer that grows as needed. */
  function Append(b: Buffer, chunk: seq<bv8>): (r: Buffer)
    ensures r.offset == b.offset
    ensures |r.bytes| == |b.bytes| + |chunk|
    ensures r.bytes[..|b.bytes|] == b.bytes && r.bytes[|b.bytes|..] == chunk
  {
    Buffer(b.bytes + chunk, b.offset)
  }

  /** Appending a chunk keeps the buffer the undiscarded suffix of the stream
      extended by that chunk; nothing is lost and nothing is reordered. */
  lemma AppendExtendsWindow(b: Buffer, stream: seq<bv8>, chunk: seq<bv8>)
    requires Window(b, stream)
    ensures Window(Append(b, chunk), stream + chunk)
  {
    assert (stream + chunk)[b.offset..] == stream[b.offset..] + chunk;
  }

  /** How many bytes `removeBytesFromBuffer(n)` drops: `n`, and one more (the
      separator after an object) when at least two bytes follow position n. */
  function Dropped(b: Buffer, n: nat): nat {
    if n + 1 < |b.bytes| then n + 1 else n
  }

  /** `removeBytesFromBuffer(n)`: keeps the bytes after the dropped prefix, in
      order, and adds the dropped count to the offset; the copy of the kept
      bytes fails when n lies beyond the buffered bytes. */
  function Remove(b: Buffer, n: nat): (r: Result<Buffer, Exception>)
    ensures r.Success? <==> n <= |b.bytes|
    ensures r.Failure? ==> r.error == IllegalArgument
    ensures r.Success? ==> r.value.offset + |r.value.bytes| == b.offset + |b.bytes|
    ensures r.Success? ==> r.value.offset == b.offset + Dropped(b, n)
    ensures r.Success? ==> r.value.bytes == b.bytes[r.value.offset - b.offset..]
  {
    var start := Dropped(b, n);
    match CopyOfRange(b.bytes, start, |b.bytes|)
    case Failure(e) => Failure(e)
    case Success(kept) => Success(Buffer(kept, b.offset + start))
  }

  /** Dropping a prefix keeps the buffer a window onto the same stream. */
  lemma RemoveKeepsWindow(b: Buffer, stream: seq<bv8>, n: nat)
    requires Window(b, stream)
    requires n <= |b.bytes|
    ensures Remove(b, n).Success?
    ensures Window(Remove(b, n).value, stream)
    ensures Remove(b, n).value.offset == b.offset + Dropped(b, n)
  {
    var r := Remove(b, n).value;
    assert r.bytes == b.bytes[Dropped(b, n)..];
  }

  /** A slice given in absolute stream positions, translated by the offset,
      reads the stream itself. */
  lemma WindowSlice(b: Buffer, stream: seq<bv8>, from: nat, to: nat)
    requires Window(b, stream)
    requires b.offset <= from <= to <= |stream|
    ensures b.bytes[from - b.offset..to - b.offset] == stream[from..to]
  {
  }
}

=== FILE: converter.dfy ===
/**
  `JsonConverter`, a `Flow.Processor<byte[], String>`, as a pure state
  machine.  Each subscriber callback (`onNext`, `onError`, `onComplete`) maps a
  converter state to a `Reaction`: the next state, the signals sent to the
  downstream subscriber and to the upstream subscription, and the exception
  the callback throws, if any.  The lexer is represented by the script of
  pulls it answers within one `onNext` (see `Events`).
*/
module Converter {
  import opened Wrappers
  import opened Events
  import opened JavaArrays
  import opened ByteBuffer
  import opened Nesting

  /** What reaches the subscriber's onError: the converter's own
      "Syntax error in JSON text", or a throwable the publisher reported. */
  datatype Throwable = SyntaxError | UpstreamFailure(id: nat)

  /** Signals to the downstream subscriber; an item is the text of one root
      object, as bytes (ASCII text decodes one byte to one character). */
  datatype Signal = Item(unit: seq<bv8>) | Failed(cause: Throwable) | Completed

  /** Signals to the upstream subscription. */
  datatype Demand = Request(n: nat) | Cancel

  /** The converter's fields; `parserOpen` is false once `cleanup()` has
      released the parser. */
  datatype Converter = Converter(
    buffer: Buffer,
    nesting: Nesting,
    producerCompleted: bool,
    erred: bool,
    parserOpen: bool)

  /** A converter as its constructor leaves it. */
  const Fresh := Converter(Empty, Initial, false, false, true)

  datatype Reaction = Reaction(state: Converter, down: seq<Signal>, up: seq<Demand>, thrown: Option<Exception>)

  function Quiet(c: Converter): Reaction {
    Reaction(c, [], [], None)
  }

  /** `a` followed by `b`. */
  function Then(a: Reaction, b: Reaction): Reaction {
    Reaction(b.state, a.down + b.down, a.up + b.up, b.thrown)
  }

  /** Every signal is an item. */
  predicate AllItems(down: seq<Signal>) {
    forall s <- down :: s.Item?
  }

  /** `onError`: marks the converter erred, passes the throwable on once, then
      releases the parser, which throws when it was already released. */
  function OnError(c: Converter, cause: Throwable): (r: Reaction)
    ensures r.state.erred && !r.state.parserOpen
    ensures r.down == [Failed(cause)] && r.up == []
    ensures r.thrown.Some? <==> !c.parserOpen
    ensures r.thrown.Some? ==> r.thrown.value == NullPointer
    ensures r.state.nesting == c.nesting && r.state.buffer == c.buffer
    ensures r.state.producerCompleted == c.producerCompleted
  {
    var erred := c.(erred := true);
    if c.parserOpen then Reaction(erred.(parserOpen := false), [Failed(cause)], [], None)
    else Reaction(erred, [Failed(cause)], [], Some(NullPointer))
  }

  /** `fireJsonError`: a lexer error reaches the subscriber as the one syntax
      error signal, and the converter is erred from then on. */
  function FireJsonError(c: Converter): (r: Reaction)
    ensures r.down == [Failed(SyntaxError)] && r.up == []
    ensures r.state.erred && !r.state.parserOpen
    ensures r.thrown.None? <==> c.parserOpen
    ensures r.state.nesting == c.nesting && r.state.buffer == c.buffer
  {
    OnError(c, SyntaxError)
  }

  /** `internalOnComplete`: once the producer has completed and parsing has
      completed without error, releases the parser and completes downstream. */
  function InternalOnComplete(c: Converter): (r: Reaction)
    ensures r.down == [Completed] <==>
              !c.erred && c.nesting.parsingCompleted && c.producerCompleted && c.parserOpen
    ensures r.down == [] || r.down == [Completed]
    ensures r.up == []
    ensures r.thrown.Some? <==>
              !c.erred && c.nesting.parsingCompleted && c.producerCompleted && !c.parserOpen
    ensures r.state.nesting == c.nesting && r.state.erred == c.erred
  {
    if !c.erred && c.nesting.parsingCompleted && c.producerCompleted then
      if c.parserOpen then Reaction(c.(parserOpen := false), [Completed], [], None)
      else Reaction(c, [], [], Some(NullPointer))
    else Quiet(c)
  }

  /** `onComplete`: records that the producer has completed; downstream
      completes only if parsing completed and nothing erred, so a truncated
      stream is answered with neither completion nor error. */
  function OnComplete(c: Converter): (r: Reaction)
    ensures r.state.producerCompleted
    ensures r.down == [Completed] <==> !c.erred && c.nesting.parsingCompleted && c.parserOpen
    ensures r.down == [] || r.down == [Completed]
    ensures r.up == []
    ensures r.state.buffer == c.buffer && r.state.nesting == c.nesting && r.state.erred == c.erred
  {
    InternalOnComplete(c.(producerCompleted := true))
  }

  /** What `onEndObjectReached` does to the buffer and the subscriber. */
  datatype Emission = Emission(unit: Option<seq<bv8>>, buffer: Buffer, thrown: Option<Exception>)

  /** `onEndObjectReached`: translates the object's absolute counts into
      buffer indices (the start count less one, since the lexer counts the
      `{` itself), emits the bytes between them, then drops them from the
      buffer.  An index outside the buffered bytes throws, before the
      emission or, when only the end lies beyond, after it. */
  function OnEndObjectReached(b: Buffer, span: Span): (r: Emission)
    ensures r.thrown.None? <==> b.offset + 1 <= span.start <= span.end + 1 <= b.offset + |b.bytes| + 1
    ensures r.unit.Some? <==> b.offset + 1 <= span.start <= span.end + 1 && span.start <= b.offset + |b.bytes| + 1
    ensures r.thrown.None? ==> r.unit == Some(b.bytes[span.start - 1 - b.offset..span.end - b.offset])
    ensures r.thrown.Some? ==> r.buffer == b
  {
    var from := span.start - b.offset - 1;
    var to := span.end - b.offset;
    match CopyOfRange(b.bytes, from, to)
    case Failure(e) => Emission(None, b, Some(e))
    case Success(unit) =>
      match Remove(b, to)
      case Failure(e) => Emission(Some(unit), b, Some(e))
      case Success(rest) => Emission(Some(unit), rest, None)
  }

  /** One token of the loop in `handleNextBytes`: the nesting step, the
      emission of a closed root object, and the error path. */
  function Handle(c: Converter, t: Token): (r: Reaction)
    ensures r.up == []
    ensures r.state.producerCompleted == c.producerCompleted
    ensures r.state.erred <==> c.erred || t.event == Error
    ensures t.event == Error ==> r == FireJsonError(c)
    ensures t.event != Error ==> AllItems(r.down) && |r.down| <= 1 && r.state.parserOpen == c.parserOpen
    ensures r.thrown.None? && t.event != Error ==> r.state.nesting == Track(c.nesting, t).next
  {
    var tr := Track(c.nesting, t);
    if tr.failed then FireJsonError(c)
    else match tr.closed
      case None => Quiet(c.(nesting := tr.next))
      case Some(span) =>
        var e := OnEndObjectReached(c.buffer, span);
        var items := if e.unit.Some? then [Item(e.unit.value)] else [];
        if e.thrown.Some? then
          // parsingCompleted is only set after onEndObjectReached returns
          Reaction(c.(nesting := tr.next.(parsingCompleted := c.nesting.parsingCompleted)), items, [], e.thrown)
        else
          Reaction(c.(nesting := tr.next, buffer := e.buffer), items, [], None)
  }

  /** The do/while loop of `handleNextBytes` over the pulls it draws while
      `remaining` bytes of the chunk are unfed.  It ends on the pull that
      stops the loop, on a lexer error (`handleNextBytes` then answers
      false), or on an exception.  A lexer keeping its contract (`Script`)
      never runs out of pulls before the loop stops; if it did, the loop
      would simply end there. */
  function Pump(c: Converter, remaining: nat, pulls: seq<Pull>): (r: Reaction)
    requires !c.erred
    ensures r.up == []
    ensures r.state.producerCompleted == c.producerCompleted
    ensures !r.state.erred ==> AllItems(r.down) && r.state.parserOpen == c.parserOpen
    ensures r.state.erred ==>
              && |r.down| > 0
              && AllItems(r.down[..|r.down| - 1])
              && r.down[|r.down| - 1] == Failed(SyntaxError)
              && exists i :: 0 <= i < |pulls| && pulls[i].token.event == Error
    decreases |pulls|
  {
    if pulls == [] then Quiet(c)
    else
      var p := pulls[0];
      var unfed := Unfed(remaining, p);
      var h := Handle(c, p.token);
      if h.thrown.Some? || h.state.erred || Stops(unfed, p.token) then h
      else Then(h, Pump(h.state, unfed, pulls[1..]))
  }

  /** `handleNextBytes`: appends the chunk to the buffer, then runs the loop;
      the parser is used at once, so a released parser throws. */
  function HandleNextBytes(c: Converter, chunk: seq<bv8>, pulls: seq<Pull>): (r: Reaction)
    requires !c.erred
    ensures r.up == []
    ensures r.state.producerCompleted == c.producerCompleted
    ensures r.state.erred ==> |r.down| > 0 && r.down[|r.down| - 1] == Failed(SyntaxError)
    ensures r.state.erred ==> AllItems(r.down[..|r.down| - 1])
    ensures !r.state.erred ==> AllItems(r.down)
  {
    var appended := c.(buffer := Append(c.buffer, chunk));
    if !c.parserOpen then Reaction(appended, [], [], Some(NullPointer))
    else Pump(appended, |chunk|, pulls)
  }

  /** `onNext`: ignored once erred; throws once producer and parsing have
      completed; otherwise handles the chunk and then cancels the upstream
      subscription after a lexer error, or requests exactly one more chunk
      while the producer has not completed. */
  function OnNext(c: Converter, chunk: seq<bv8>, pulls: seq<Pull>): (r: Reaction)
    ensures c.erred ==> r == Quiet(c)
    ensures !c.erred && c.producerCompleted && c.nesting.parsingCompleted ==>
              r == Reaction(c, [], [], Some(ProcessorCompleted))
    ensures r.up == [Cancel] <==> !c.erred && r.state.erred && r.thrown.None?
    ensures r.up == [Request(1)] <==> !c.erred && !r.state.erred && r.thrown.None?
    ensures r.up == [] || r.up == [Cancel] || r.up == [Request(1)]
    ensures r.thrown.None? && !c.erred && !r.state.erred ==> !c.producerCompleted && AllItems(r.down)
    ensures !c.erred && r.state.erred ==>
              |r.down| > 0 && AllItems(r.down[..|r.down| - 1]) && r.down[|r.down| - 1] == Failed(SyntaxError)
  {
    if c.erred then Quiet(c)
    else if c.producerCompleted && c.nesting.parsingCompleted then Reaction(c, [], [], Some(ProcessorCompleted))
    else
      var h := HandleNextBytes(c, chunk, pulls);
      if h.thrown.Some? then h
      else if h.state.erred then h.(up := [Cancel])
      else if !h.state.producerCompleted then h.(up := [Request(1)])
      else h.(thrown := Some(ProducerFinished))
  }

  /** A call the upstream publisher makes on the converter. */
  datatype Call = Chunk(bytes: seq<bv8>, pulls: seq<Pull>) | Complete | Fail(cause: Throwable)

  /** Each chunk comes with the pulls its loop draws. */
  predicate Scripted(calls: seq<Call>) {
    forall call <- calls :: call.Chunk? ==> Script(|call.bytes|, call.pulls)
  }

  function Apply(c: Converter, call: Call): Reaction {
    match call
    case Chunk(bytes, pulls) => OnNext(c, bytes, pulls)
    case Complete => OnComplete(c)
    case Fail(cause) => OnError(c, cause)
  }

  /** The calls fed one by one to `step`; an exception ends the run, since
      it propagates into the publisher. */
  function Replay(step: (Converter, Call) -> Reaction, c: Converter, calls: seq<Call>): Reaction
    decreases |calls|
  {
    if calls == [] then Quiet(c)
    else
      var first := step(c, calls[0]);
      if first.thrown.Some? then first
      else Then(first, Replay(step, first.state, calls[1..]))
  }

  /** The converter's answers to a run of calls. */
  function Run(c: Converter, calls: seq<Call>): Reaction {
    Replay(Apply, c, calls)
  }
}

=== FILE: events.dfy ===
/**
  The lexer the converter drives (actson's `JsonParser` with its
  `DefaultJsonFeeder`), reduced to what the converter observes: one structural
  event per call of `nextEvent`, the running count of parsed characters after
  that event, and how many bytes each call of `feed` accepted.
*/
module Events {

  /** The events the converter distinguishes; every other event is `Other`. */
  datatype Event = StartObject | EndObject | StartArray | EndArray | Error | NeedMoreInput | Other

  /** An event together with the parsed-character count the lexer reports
      right after it (so `{` at index i comes with count i + 1). */
  datatype Token = Token(event: Event, count: nat)

  /** One pass of the feed/event loop of `handleNextBytes`: `fed` bytes taken by
      the feeder (no feed happens once the chunk is fully fed, and then `fed` is
      ignored), followed by the token `nextEvent` returned. */
  datatype Pull = Pull(fed: nat, token: Token)

  /** The loop condition of `handleNextBytes`: the loop ends on an error event,
      or once the whole chunk is fed and the lexer asks for more input. */
  predicate Stops(remaining: nat, t: Token) {
    t.event == Error || (remaining == 0 && t.event == NeedMoreInput)
  }

  /** Bytes of the chunk still unfed after one pass. */
  function Unfed(remaining: nat, p: Pull): nat {
    if remaining == 0 || remaining < p.fed then 0 else remaining - p.fed
  }

  /** `pulls` is exactly what the loop draws from the lexer for a chunk of
      which `remaining` bytes are not yet fed: a feed never takes more than it
      is offered, and the last pull is the first that ends the loop. */
  predicate Script(remaining: nat, pulls: seq<Pull>)
    decreases |pulls|
  {
    && |pulls| > 0
    && (remaining == 0 || pulls[0].fed <= remaining)
    && if Stops(Unfed(remaining, pulls[0]), pulls[0].token) then |pulls| == 1
       else Script(Unfed(remaining, pulls[0]), pulls[1..])
  }

  /** The tokens of a script, in the order the lexer returned them. */
  function Tokens(pulls: seq<Pull>): (ts: seq<Token>)
    ensures |ts| == |pulls|
    ensures forall i :: 0 <= i < |pulls| ==> ts[i] == pulls[i].token
  {
    if pulls == [] then [] else [pulls[0].token] + Tokens(pulls[1..])
  }

  /** The tokens that matter to nesting: all but `NeedMoreInput` and `Other`,
      whose number and position depend on how the input was chunked. */
  function Structural(ts: seq<Token>): (r: seq<Token>)
    ensures |r| <= |ts|
    ensures forall i :: 0 <= i < |r| ==> r[i].event !in {NeedMoreInput, Other}
  {
    if ts == [] then []
    else if ts[0].event in {NeedMoreInput, Other} then Structural(ts[1..])
    else [ts[0]] + Structural(ts[1..])
  }

  /** `{` and `}` in ASCII. */
  const OpenBrace: bv8 := 0x7B
  const CloseBrace: bv8 := 0x7D

  /** What the lexer promises about a token of the byte stream `s`: an object
      start is reported right after its `{`, which never directly follows a
      `}` (JSON has no such adjacency outside strings), and an object end
      right after its `}`. */
  predicate Shape(s: seq<bv8>, t: Token) {
    && (t.event == StartObject ==>
          && 1 <= t.count <= |s|
          && s[t.count - 1] == OpenBrace
          && (t.count >= 2 ==> s[t.count - 2] != CloseBrace))
    && (t.event == EndObject ==> 1 <= t.count <= |s| && s[t.count - 1] == CloseBrace)
  }

  /** The tokens `ts` are ones the lexer can report once `bound` bytes of `s`
      were fed, after a token with count `last`: counts never decrease, never
      pass the bytes fed, and every token has its `Shape`. */
  predicate TokensFit(s: seq<bv8>, bound: nat, last: nat, ts: seq<Token>)
    decreases |ts|
  {
    ts == [] ||
    (&& last <= ts[0].count <= bound
     && Shape(s, ts[0])
     && TokensFit(s, bound, ts[0].count, ts[1..]))
  }

  /** The count of the last of `ts`, or `last` when there is none. */
  function LastCount(last: nat, ts: seq<Token>): nat
    decreases |ts|
  {
    if ts == [] then last else LastCount(ts[0].count, ts[1..])
  }
}

=== FILE: java_arrays.dfy ===
/**
  The parts of the Java platform the converter leans on: the exceptions its
  operations can end in, and `java.util.Arrays.copyOfRange` on byte arrays,
  which both `onEndObjectReached` and `removeBytesFromBuffer` call.
*/
module JavaArrays {
  import opened Wrappers

  /** Exceptions the converter's methods can throw to their caller. */
  datatype Exception =
    | IllegalArgument     // copyOfRange with from > to
    | IndexOutOfBounds    // copyOfRange with from outside the array; a write past the fixed buffer
    | NullPointer         // the parser was already released by cleanup()
    | ProcessorCompleted  // onNext after producer and parsing completed
    | ProducerFinished    // onNext after the producer already completed

  /** `n` zero bytes, as a fresh Java array holds them. */
  function Zeros(n: nat): (z: seq<bv8>)
    ensures |z| == n
    ensures forall i :: 0 <= i < n ==> z[i] == 0
  {
    if n == 0 then [] else Zeros(n - 1) + [0]
  }

  /** `Arrays.copyOfRange(a, from, to)`: the bytes a[from..to], padded with
      zeros where `to` runs past the end of `a`; IllegalArgument when from > to,
      IndexOutOfBounds when `from` lies outside 0..|a|. */
  function CopyOfRange(a: seq<bv8>, from: int, to: int): (r: Result<seq<bv8>, Exception>)
    ensures r.Success? <==> 0 <= from <= to && from <= |a|
    ensures r.Failure? && from > to ==> r.error == IllegalArgument
    ensures r.Failure? && from <= to ==> r.error == IndexOutOfBounds
    ensures r.Success? ==> |r.value| == to - from
    ensures r.Success? && to <= |a| ==> r.value == a[from..to]
    ensures r.Success? && to > |a| ==> r.value[..|a| - from] == a[from..] && r.value[|a| - from..] == Zeros(to - |a|)
  {
    if from > to then Failure(IllegalArgument)
    else if from < 0 || from > |a| then Failure(IndexOutOfBounds)
    else if to <= |a| then Success(a[from..to])
    else Success(a[from..] + Zeros(to - |a|))
  }
}

=== FILE: level.dfy ===
/**
  The nesting counter the converter keeps once for objects and once for arrays
  (`nestedObjectLevel`, `nestedArrayLevel` in JsonConverter.java).  The counter
  class itself is not part of this model's sources; its uses offer increment,
  decrement and a root test, and it is modelled as an unbounded integer, so a
  close without a matching open drives it below zero instead of failing.
*/
module Levels {

  datatype Level = Level(depth: int) {

    /** The counter is back at the outermost level. */
    predicate IsRoot() {
      depth == 0
    }

    /** One level deeper. */
    function Increment(): Level {
      Level(depth + 1)
    }

    /** One level out. */
    function Decrement(): Level {
      Level(depth - 1)
    }
  }

  /** The level both counters start at. */
  const Root := Level(0)

  /** Increment and decrement undo each other, and neither stays at the root:
      a counter returns to the root only by a balancing move. */
  lemma MovesUndoEachOther(l: Level)
    ensures l.Increment().Decrement() == l && l.Decrement().Increment() == l
    ensures l.IsRoot() ==> !l.Increment().IsRoot() && !l.Decrement().IsRoot()
    ensures l.Increment().IsRoot() <==> l == Root.Decrement()
    ensures l.Decrement().IsRoot() <==> l == Root.Increment()
  {
  }
}

=== FILE: nesting.dfy ===
/**
  The structural side of `handleNextBytes` (JsonConverter.java:162-201): the
  two nesting counters, the start count of the object being collected and the
  `parsingCompleted` flag, advanced by one lexer token at a time.  Which root
  object closes is decided here; cutting its bytes out of the buffer is the
  converter's business.
*/
module Nesting {
  import opened Wrappers
  import opened Levels
  import opened Events

  datatype Nesting = Nesting(objectLevel: Level, arrayLevel: Level, startOfObject: nat, parsingCompleted: bool)

  /** The state of a fresh converter. */
  const Initial := Nesting(Root, Root, 0, false)

  /** A root-level object, by the counts reported with its `{` and its `}`:
      its text is stream[start - 1..end]. */
  datatype Span = Span(start: nat, end: nat)

  /** The effect of one token: the next state, the root object it closed, and
      whether it was a lexer error. */
  datatype Tracked = Tracked(next: Nesting, closed: Option<Span>, failed: bool)

  /** One token of the switch in `handleNextBytes`.  An object start records
      its count only at object root; an object end that returns the object
      level to root closes the object and completes parsing when no array is
      open; an array end that returns the array level to root completes
      parsing when no object is open either (see `TrackAsWritten`); once
      parsing is completed only errors matter. */
  function Track(n: Nesting, t: Token): (r: Tracked)
    ensures r.failed <==> t.event == Error
    ensures r.failed ==> r.next == n && r.closed == None
    ensures n.parsingCompleted ==> r.next == n && r.closed == None
    ensures t.event in {NeedMoreInput, Other} ==> r == Tracked(n, None, false)
    ensures r.closed.Some? <==> !n.parsingCompleted && t.event == EndObject && n.objectLevel.depth == 1
    ensures r.closed.Some? ==> r.closed.value == Span(n.startOfObject, t.count)
    ensures !n.parsingCompleted && !r.failed ==>
              && r.next.objectLevel.depth ==
                   n.objectLevel.depth + (if t.event == StartObject then 1 else if t.event == EndObject then -1 else 0)
              && r.next.arrayLevel.depth ==
                   n.arrayLevel.depth + (if t.event == StartArray then 1 else if t.event == EndArray then -1 else 0)
    ensures !n.parsingCompleted && t.event == StartObject && n.objectLevel.IsRoot() ==> r.next.startOfObject == t.count
    ensures r.next.startOfObject != n.startOfObject ==>
              !n.parsingCompleted && t.event == StartObject && n.objectLevel.IsRoot() && r.next.startOfObject == t.count
    ensures r.next.parsingCompleted <==>
              || n.parsingCompleted
              || (t.event == EndObject && n.objectLevel.depth == 1 && n.arrayLevel.IsRoot())
              || (t.event == EndArray && n.arrayLevel.depth == 1 && n.objectLevel.IsRoot())
  {
    if n.parsingCompleted then Tracked(n, None, t.event == Error)
    else match t.event
      case StartObject =>
        var start := if n.objectLevel.IsRoot() then t.count else n.startOfObject;
        Tracked(n.(objectLevel := n.objectLevel.Increment(), startOfObject := start), None, false)
      case EndObject =>
        var level := n.objectLevel.Decrement();
        if level.IsRoot() then
          Tracked(n.(objectLevel := level, parsingCompleted := n.arrayLevel.IsRoot()),
                  Some(Span(n.startOfObject, t.count)), false)
        else
          Tracked(n.(objectLevel := level), None, false)
      case StartArray =>
        Tracked(n.(arrayLevel := n.arrayLevel.Increment()), None, false)
      case EndArray =>
        var level := n.arrayLevel.Decrement();
        Tracked(n.(arrayLevel := level, parsingCompleted := level.IsRoot() && n.objectLevel.IsRoot()), None, false)
      case Error =>
        Tracked(n, None, true)
      case _ =>
        Tracked(n, None, false)
  }

  /** `Track` with the array-end rule as the source writes it: any array end
      that returns the array level to root completes parsing, even one closing
      an array that is a member of the single top-level object. */
  function TrackAsWritten(n: Nesting, t: Token): (r: Tracked)
    ensures r.next.parsingCompleted <==>
              || Track(n, t).next.parsingCompleted
              || (!n.parsingCompleted && t.event == EndArray && n.arrayLevel.depth == 1)
    ensures !(t.event == EndArray && !n.parsingCompleted && !n.objectLevel.IsRoot()) ==> r == Track(n, t)
  {
    if !n.parsingCompleted && t.event == EndArray then
      var level := n.arrayLevel.Decrement();
      Tracked(n.(arrayLevel := level, parsingCompleted := level.IsRoot()), None, false)
    else
      Track(n, t)
  }

  /** The object that holds an array, `{"a":[1]}`, is lost as written: closing
      the array completes parsing while the object is still open, so the
      object's own end is ignored.  With the corrected rule the object is
      closed and emitted. */
  lemma ArrayInsideObjectLostAsWritten(n: Nesting, endArray: Token, endObject: Token)
    requires !n.parsingCompleted && n.objectLevel.depth == 1 && n.arrayLevel.depth == 1
    requires endArray.event == EndArray && endObject.event == EndObject
    ensures TrackAsWritten(n, endArray).next.parsingCompleted
    ensures TrackAsWritten(TrackAsWritten(n, endArray).next, endObject).closed == None
    ensures !Track(n, endArray).next.parsingCompleted
    ensures Track(Track(n, endArray).next, endObject).closed == Some(Span(n.startOfObject, endObject.count))
    ensures Track(Track(n, endArray).next, endObject).next.parsingCompleted
  {
  }

  /** What a run of tokens amounts to: the root objects closed, in order, the
      state reached, and whether the run ended on a lexer error (tokens after
      the error are never drawn). */
  datatype Trace = Trace(spans: seq<Span>, final: Nesting, failed: bool)

  function Closed(o: Option<Span>): seq<Span> {
    if o.Some? then [o.value] else []
  }

  function TrackAll(n: Nesting, ts: seq<Token>): (r: Trace)
    ensures |r.spans| <= |ts|
    ensures r.failed ==> exists i :: 0 <= i < |ts| && ts[i].event == Error
    decreases |ts|
  {
    if ts == [] then Trace([], n, false)
    else
      var tr := Track(n, ts[0]);
      if tr.failed then Trace([], n, true)
      else
        var rest := TrackAll(tr.next, ts[1..]);
        Trace(Closed(tr.closed) + rest.spans, rest.final, rest.failed)
  }

  /** A run fails exactly when one of its tokens is a lexer error: an error
      fails even after parsing has completed. */
  lemma {:induction false} TrackAllFailsExactlyOnError(n: Nesting, ts: seq<Token>)
    ensures TrackAll(n, ts).failed <==> exists i :: 0 <= i < |ts| && ts[i].event == Error
    decreases |ts|
  {
    if ts != [] {
      var tr := Track(n, ts[0]);
      if !tr.failed {
        TrackAllFailsExactlyOnError(tr.next, ts[1..]);
        if exists i :: 0 <= i < |ts| && ts[i].event == Error {
          var i :| 0 <= i < |ts| && ts[i].event == Error;
          assert i != 0;
          assert ts[1..][i - 1].event == Error;
        }
      }
    }
  }

  /** Tracking two runs one after the other is tracking their concatenation. */
  lemma {:induction false} TrackAllAppend(n: Nesting, a: seq<Token>, b: seq<Token>)
    ensures TrackAll(n, a + b) ==
              var ta := TrackAll(n, a);
              if ta.failed then ta
              else var tb := TrackAll(ta.final, b); Trace(ta.spans + tb.spans, tb.final, tb.failed)
    decreases |a|
  {
    if a == [] {
      assert a + b == b;
    } else {
      assert (a + b)[0] == a[0];
      assert (a + b)[1..] == a[1..] + b;
      var tr := Track(n, a[0]);
      if !tr.failed {
        TrackAllAppend(tr.next, a[1..], b);
      }
    }
  }

  /** Need-more-input and other non-structural tokens leave no trace, so the
      outcome depends only on the structural tokens. */
  lemma {:induction false} TrackAllStructural(n: Nesting, ts: seq<Token>)
    ensures TrackAll(n, Structural(ts)) == TrackAll(n, ts)
    decreases |ts|
  {
    if ts != [] {
      TrackAllStructural(Track(n, ts[0]).next, ts[1..]);
      if ts[0].event !in {NeedMoreInput, Other} {
        var s := [ts[0]] + Structural(ts[1..]);
        assert s[0] == ts[0] && s[1..] == Structural(ts[1..]);
      }
    }
  }

  /** The object being collected starts at a `{` already seen. */
  predicate Pending(n: Nesting, s: seq<bv8>, last: nat) {
    n.objectLevel.depth >= 1 ==>
      && 1 <= n.startOfObject <= last
      && n.startOfObject <= |s|
      && s[n.startOfObject - 1] == OpenBrace
  }

  /** A span reaches from a `{` to a later `}` of the stream. */
  predicate Delimited(s: seq<bv8>, sp: Span) {
    && 1 <= sp.start < sp.end <= |s|
    && s[sp.start - 1] == OpenBrace
    && s[sp.end - 1] == CloseBrace
  }

  /** No span of a run starts before this count. */
  function Floor(n: Nesting, last: nat): nat {
    if n.objectLevel.depth >= 1 then n.startOfObject else last
  }

  /** Spans in stream order, each ending before the next one starts. */
  predicate Ordered(spans: seq<Span>) {
    forall i :: 0 <= i < |spans| - 1 ==> spans[i].end < spans[i + 1].start
  }

  /** Every closed root object runs from its `{` to its `}`, and the objects
      follow one another in the stream without overlapping. */
  lemma {:induction false} SpansDelimited(n: Nesting, s: seq<bv8>, bound: nat, last: nat, ts: seq<Token>)
    requires bound <= |s|
    requires TokensFit(s, bound, last, ts)
    requires Pending(n, s, last)
    ensures forall sp <- TrackAll(n, ts).spans :: Delimited(s, sp) && Floor(n, last) <= sp.start
    ensures Ordered(TrackAll(n, ts).spans)
    decreases |ts|
  {
    if ts != [] {
      var t := ts[0];
      var tr := Track(n, t);
      if !tr.failed {
        assert Pending(tr.next, s, t.count);
        SpansDelimited(tr.next, s, bound, t.count, ts[1..]);
        var rest := TrackAll(tr.next, ts[1..]).spans;
        assert TrackAll(n, ts).spans == Closed(tr.closed) + rest;
        if tr.closed.Some? {
          assert Delimited(s, tr.closed.value);
          forall sp <- rest
            ensures t.count < sp.start
          {
            assert Delimited(s, sp);
          }
        }
      }
    }
  }
}

=== FILE: scenarios.dfy ===
/**
  Concrete runs: byte-exact chunks with the pulls a lexer answers for them
  (counts as the lexer reports them after each token), and the signals the
  converter sends downstream and upstream.
*/
module Scenarios {
  import opened Events
  import opened Nesting
  import opened Converter
  import opened Splitting
  import opened Levels

  // ---- Shared steps ----

  /** A single chunk fits the stream made of its bytes when its tokens do. */
  lemma FitsOneChunk(s: seq<bv8>, a: Call)
    requires a.Chunk? && s == a.bytes
    requires TokensFit(s, |s|, 0, Tokens(a.pulls))
    ensures Fits(s, 0, 0, [a])
  {
    var calls := [a];
    assert s[0..|s|] == s;
    assert calls[1..] == [];
  }

  /** Two chunks fit the stream made of their bytes when each chunk's tokens
      fit it. */
  lemma FitsTwoChunks(s: seq<bv8>, a: Call, b: Call)
    requires a.Chunk? && b.Chunk? && s == a.bytes + b.bytes
    requires TokensFit(s, |a.bytes|, 0, Tokens(a.pulls))
    requires TokensFit(s, |s|, LastCount(0, Tokens(a.pulls)), Tokens(b.pulls))
    ensures Fits(s, 0, 0, [a, b])
  {
    var calls := [a, b];
    assert s[0..|a.bytes|] == a.bytes;
    assert s[|a.bytes|..|s|] == b.bytes;
    assert calls[1..][1..] == [];
    assert Fits(s, |s|, LastCount(LastCount(0, Tokens(a.pulls)), Tokens(b.pulls)), calls[1..][1..]);
    assert Fits(s, |a.bytes|, LastCount(0, Tokens(a.pulls)), calls[1..]);
  }

  /** The stream, tokens and scripts of two chunks are those of each. */
  lemma TwoChunkParts(a: Call, b: Call)
    requires a.Chunk? && b.Chunk?
    ensures Stream([a, b]) == a.bytes + b.bytes
    ensures AllTokens([a, b]) == Tokens(a.pulls) + Tokens(b.pulls)
    ensures Scripted([a, b]) <==> Script(|a.bytes|, a.pulls) && Script(|b.bytes|, b.pulls)
  {
    var calls := [a, b];
    assert calls[1..] == [b] && [b][1..] == [];
    assert Stream([b]) == b.bytes + Stream([]);
    assert AllTokens([b]) == Tokens(b.pulls) + AllTokens([]);
  }

  /** Two chunks without a syntax error are each answered with one request. */
  lemma TwoChunkDemands(n: Nesting, a: Call, b: Call)
    requires a.Chunk? && b.Chunk?
    requires !TrackAll(n, Tokens(a.pulls)).failed
    requires !TrackAll(TrackAll(n, Tokens(a.pulls)).final, Tokens(b.pulls)).failed
    ensures ExpectedDemands(n, [a, b]) == [Request(1), Request(1)]
  {
    var calls := [a, b];
    assert calls[1..] == [b] && [b][1..] == [];
    var next := TrackAll(n, Tokens(a.pulls)).final;
    assert ExpectedDemands(next, [b]) == [Request(1)] + ExpectedDemands(TrackAll(next, Tokens(b.pulls)).final, []);
  }

  /** What a lexer-consistent run without a syntax error followed by the
      producer's completion sends: the units of the spans the nesting closes,
      then `Completed` exactly when parsing completed. */
  lemma CleanOutcome(calls: seq<Call>, s: seq<bv8>, spans: seq<Span>, final: Nesting, units: seq<Signal>)
    requires LexerConsistent(calls)
    requires Stream(calls) == s
    requires TrackAll(Initial, AllTokens(calls)) == Trace(spans, final, false)
    requires Units(s, spans) == units
    ensures Run(Fresh, calls + [Complete]).down == units + (if final.parsingCompleted then [Completed] else [])
    ensures Run(Fresh, calls + [Complete]).up == ExpectedDemands(Initial, calls)
  {
    CompletionOnlyAfterParsing(calls);
  }

  /** A lexer-consistent single chunk without a syntax error, followed by
      the producer's completion: `down` is the units of the spans its tokens
      close, then `Completed` exactly when parsing completed. */
  lemma OneChunkOutcome(calls: seq<Call>, s: seq<bv8>, pulls: seq<Pull>, ts: seq<Token>,
                        spans: seq<Span>, final: Nesting, units: seq<Signal>, down: seq<Signal>)
    requires calls == [Chunk(s, pulls), Complete]
    requires Script(|s|, pulls) && Tokens(pulls) == ts && TokensFit(s, |s|, 0, ts)
    requires TrackAll(Initial, ts) == Trace(spans, final, false)
    requires Units(s, spans) == units
    requires down == units + (if final.parsingCompleted then [Completed] else [])
    ensures Run(Fresh, calls).down == down
    ensures Run(Fresh, calls).up == [Request(1)]
  {
    var chunks := [Chunk(s, pulls)];
    assert calls == chunks + [Complete];
    assert chunks[1..] == [];
    assert Stream(chunks) == s;
    assert AllTokens(chunks) == ts;
    FitsOneChunk(s, chunks[0]);
    assert ExpectedDemands(Initial, chunks) == [Request(1)];
    CleanOutcome(chunks, s, spans, final, units);
  }

  /** Two lexer-consistent chunks without a syntax error, followed by the
      producer's completion: `down` is the units of the spans their tokens
      close, then `Completed` exactly when parsing completed. */
  lemma TwoChunkOutcome(calls: seq<Call>, chunks: seq<Call>, s: seq<bv8>, spans: seq<Span>, final: Nesting,
                        units: seq<Signal>, down: seq<Signal>)
    requires |calls| == 3 && chunks == calls[..2] && calls[2] == Complete
    requires LexerConsistent(chunks) && Stream(chunks) == s
    requires TrackAll(Initial, AllTokens(chunks)) == Trace(spans, final, false)
    requires Units(s, spans) == units
    requires down == units + (if final.parsingCompleted then [Completed] else [])
    ensures Run(Fresh, calls).down == down
    ensures Run(Fresh, calls).up == ExpectedDemands(Initial, chunks)
  {
    assert calls == chunks + [Complete];
    CleanOutcome(chunks, s, spans, final, units);
  }

  // ---- `{"a":1}` in one chunk ----

  /** `{"a":1}` */
  function ObjectA(): seq<bv8> { [0x7B, 0x22, 0x61, 0x22, 0x3A, 0x31, 0x7D] }

  function ObjectAPulls(): seq<Pull> {
    [Pull(7, Token(StartObject, 1)), Pull(0, Token(Other, 4)), Pull(0, Token(Other, 6)),
     Pull(0, Token(EndObject, 7)), Pull(0, Token(NeedMoreInput, 7))]
  }

  function ObjectATokens(): seq<Token> {
    [Token(StartObject, 1), Token(Other, 4), Token(Other, 6), Token(EndObject, 7), Token(NeedMoreInput, 7)]
  }

  lemma ObjectALexed()
    ensures Script(7, ObjectAPulls()) && Tokens(ObjectAPulls()) == ObjectATokens()
    ensures TokensFit(ObjectA(), 7, 0, ObjectATokens())
  {
    var s, ts := ObjectA(), ObjectATokens();
    assert Tokens(ObjectAPulls()) == ts;
    assert TokensFit(s, 7, 7, ts[3..]);
    assert TokensFit(s, 7, 1, ts[1..]);
    assert ts[0..] == ts;
  }

  lemma ObjectATracked()
    ensures TrackAll(Initial, ObjectATokens()) == Trace([Span(1, 7)], Nesting(Root, Root, 1, true), false)
    ensures Units(ObjectA(), [Span(1, 7)]) == [Item(ObjectA())]
  {
    assert ObjectA()[0..7] == ObjectA();
  }

  /** A single object in one chunk is emitted whole, one more chunk is
      requested, and the producer's completion completes downstream. */
  lemma SingleObjectInOneChunk(calls: seq<Call>)
    requires calls == [Chunk(ObjectA(), ObjectAPulls()), Complete]
    ensures Run(Fresh, calls).down == [Item(ObjectA()), Completed]
    ensures Run(Fresh, calls).up == [Request(1)]
  {
    assert [Item(ObjectA())] + [Completed] == [Item(ObjectA()), Completed];
    ObjectALexed();
    ObjectATracked();
    OneChunkOutcome(calls, ObjectA(), ObjectAPulls(), ObjectATokens(), [Span(1, 7)],
                    Nesting(Root, Root, 1, true), [Item(ObjectA())], [Item(ObjectA()), Completed]);
  }

  // ---- `[{"a":1},{"b":2}]` as `[{"a":1},{` and `"b":2}]` ----

  /** `[{"a":1},{` */
  function ArrayHead(): seq<bv8> { [0x5B, 0x7B, 0x22, 0x61, 0x22, 0x3A, 0x31, 0x7D, 0x2C, 0x7B] }

  /** `"b":2}]` */
  function ArrayTail(): seq<bv8> { [0x22, 0x62, 0x22, 0x3A, 0x32, 0x7D, 0x5D] }

  /** `[{"a":1},{"b":2}]` */
  function ArrayAB(): seq<bv8> {
    [0x5B, 0x7B, 0x22, 0x61, 0x22, 0x3A, 0x31, 0x7D, 0x2C, 0x7B, 0x22, 0x62, 0x22, 0x3A, 0x32, 0x7D, 0x5D]
  }

  /** `{"b":2}` */
  function ObjectB(): seq<bv8> { [0x7B, 0x22, 0x62, 0x22, 0x3A, 0x32, 0x7D] }

  function HeadPulls(): seq<Pull> {
    [Pull(10, Token(StartArray, 1)), Pull(0, Token(StartObject, 2)), Pull(0, Token(Other, 5)),
     Pull(0, Token(Other, 7)), Pull(0, Token(EndObject, 8)), Pull(0, Token(StartObject, 10)),
     Pull(0, Token(NeedMoreInput, 10))]
  }

  function HeadTokens(): seq<Token> {
    [Token(StartArray, 1), Token(StartObject, 2), Token(Other, 5), Token(Other, 7), Token(EndObject, 8),
     Token(StartObject, 10), Token(NeedMoreInput, 10)]
  }

  function TailPulls(): seq<Pull> {
    [Pull(7, Token(Other, 13)), Pull(0, Token(Other, 15)), Pull(0, Token(EndObject, 16)),
     Pull(0, Token(EndArray, 17)), Pull(0, Token(NeedMoreInput, 17))]
  }

  function TailTokens(): seq<Token> {
    [Token(Other, 13), Token(Other, 15), Token(EndObject, 16), Token(EndArray, 17), Token(NeedMoreInput, 17)]
  }

  lemma HeadAndTailScripts()
    ensures Script(10, HeadPulls()) && Tokens(HeadPulls()) == HeadTokens()
    ensures Script(7, TailPulls()) && Tokens(TailPulls()) == TailTokens()
  {
    assert Tokens(HeadPulls()) == HeadTokens();
    assert Tokens(TailPulls()) == TailTokens();
  }

  lemma HeadAndTailFit()
    ensures TokensFit(ArrayAB(), 10, 0, HeadTokens())
    ensures LastCount(0, HeadTokens()) == 10
    ensures TokensFit(ArrayAB(), 17, 10, TailTokens())
  {
    var s, h, t := ArrayAB(), HeadTokens(), TailTokens();
    assert TokensFit(s, 10, 10, h[6..]);
    assert TokensFit(s, 10, 8, h[5..]);
    assert TokensFit(s, 10, 7, h[4..]);
    assert TokensFit(s, 10, 5, h[3..]);
    assert TokensFit(s, 10, 2, h[2..]);
    assert TokensFit(s, 10, 1, h[1..]);
    assert h[0..] == h;
    assert TokensFit(s, 17, 17, t[4..]);
    assert TokensFit(s, 17, 16, t[3..]);
    assert TokensFit(s, 17, 15, t[2..]);
    assert TokensFit(s, 17, 13, t[1..]);
    assert t[0..] == t;
  }

  lemma ArrayABParts()
    ensures ArrayHead() + ArrayTail() == ArrayAB()
  {
  }

  lemma TwoChunksConsistent(calls: seq<Call>)
    requires calls == [Chunk(ArrayHead(), HeadPulls()), Chunk(ArrayTail(), TailPulls())]
    ensures LexerConsistent(calls)
    ensures Stream(calls) == ArrayAB()
    ensures AllTokens(calls) == HeadTokens() + TailTokens()
  {
    assert calls == [calls[0], calls[1]];
    HeadAndTailScripts();
    HeadAndTailFit();
    ArrayABParts();
    TwoChunkParts(calls[0], calls[1]);
    FitsTwoChunks(ArrayAB(), calls[0], calls[1]);
  }

  lemma HeadTrace()
    ensures TrackAll(Initial, HeadTokens()) ==
              Trace([Span(2, 8)], Nesting(Level(1), Level(1), 10, false), false)
  {
  }

  lemma TailTrace()
    ensures TrackAll(Nesting(Level(1), Level(1), 10, false), TailTokens()) ==
              Trace([Span(10, 16)], Nesting(Root, Root, 10, true), false)
  {
  }

  lemma TwoChunksTrace()
    ensures TrackAll(Initial, HeadTokens() + TailTokens()) ==
              Trace([Span(2, 8), Span(10, 16)], Nesting(Root, Root, 10, true), false)
  {
    HeadTrace();
    TailTrace();
    TrackAllAppend(Initial, HeadTokens(), TailTokens());
  }

  lemma TwoChunksDemands(calls: seq<Call>)
    requires calls == [Chunk(ArrayHead(), HeadPulls()), Chunk(ArrayTail(), TailPulls())]
    ensures ExpectedDemands(Initial, calls) == [Request(1), Request(1)]
  {
    assert calls == [calls[0], calls[1]];
    HeadAndTailScripts();
    HeadTrace();
    TailTrace();
    TwoChunkDemands(Initial, calls[0], calls[1]);
  }

  lemma TwoChunksUnits()
    ensures Units(ArrayAB(), [Span(2, 8), Span(10, 16)]) == [Item(ObjectA()), Item(ObjectB())]
  {
    var s := ArrayAB();
    assert s[1..8] == ObjectA();
    assert s[9..16] == ObjectB();
    assert Units(s, [Span(10, 16)]) == [Item(ObjectB())];
  }

  /** An array of two objects split inside the second object: both objects
      are emitted whole and in order, one chunk is requested after each
      chunk, and the producer's completion completes downstream. */
  lemma ArraySplitAcrossChunks(calls: seq<Call>)
    requires calls == [Chunk(ArrayHead(), HeadPulls()), Chunk(ArrayTail(), TailPulls()), Complete]
    ensures Run(Fresh, calls).down == [Item(ObjectA()), Item(ObjectB()), Completed]
    ensures Run(Fresh, calls).up == [Request(1), Request(1)]
  {
    assert [Item(ObjectA()), Item(ObjectB())] + [Completed] == [Item(ObjectA()), Item(ObjectB()), Completed];
    var chunks := calls[..2];
    TwoChunksConsistent(chunks);
    TwoChunksTrace();
    TwoChunksDemands(chunks);
    TwoChunksUnits();
    TwoChunkOutcome(calls, chunks, ArrayAB(), [Span(2, 8), Span(10, 16)], Nesting(Root, Root, 10, true),
                    [Item(ObjectA()), Item(ObjectB())], [Item(ObjectA()), Item(ObjectB()), Completed]);
  }

  // ---- `{"a":}`: a syntax error ----

  /** `{"a":}` */
  function Malformed(): seq<bv8> { [0x7B, 0x22, 0x61, 0x22, 0x3A, 0x7D] }

  function MalformedPulls(): seq<Pull> {
    [Pull(6, Token(StartObject, 1)), Pull(0, Token(Other, 4)), Pull(0, Token(Error, 6))]
  }

  function MalformedTokens(): seq<Token> {
    [Token(StartObject, 1), Token(Other, 4), Token(Error, 6)]
  }

  lemma MalformedChunk(calls: seq<Call>)
    requires calls == [Chunk(Malformed(), MalformedPulls())]
    ensures LexerConsistent(calls)
    ensures Stream(calls) == Malformed()
    ensures AllTokens(calls) == MalformedTokens()
  {
    var s, ts := Malformed(), MalformedTokens();
    assert Tokens(MalformedPulls()) == ts;
    assert Script(6, MalformedPulls());
    assert TokensFit(s, 6, 4, ts[2..]);
    assert TokensFit(s, 6, 1, ts[1..]);
    assert ts[0..] == ts;
    FitsOneChunk(s, calls[0]);
    assert calls[1..] == [];
  }

  /** A syntax error inside the only object: nothing is emitted but the
      error, and the subscription is cancelled instead of asking for more. */
  lemma SyntaxErrorCancels(calls: seq<Call>)
    requires calls == [Chunk(Malformed(), MalformedPulls())]
    ensures Run(Fresh, calls).thrown.None?
    ensures Run(Fresh, calls).down == [Failed(SyntaxError)]
    ensures Run(Fresh, calls).up == [Cancel]
  {
    MalformedChunk(calls);
    SplitterEmitsRootObjects(calls);
    var n1 := Nesting(Level(1), Root, 1, false);
    assert TrackAll(Initial, MalformedTokens()) == Trace([], n1, true);
    assert calls[1..] == [];
    assert ExpectedDemands(Initial, calls) == [Cancel];
  }

  // ---- `{"a":[1]}`: an array inside the single object ----

  /** `{"a":[1]}` */
  function ObjectWithArray(): seq<bv8> { [0x7B, 0x22, 0x61, 0x22, 0x3A, 0x5B, 0x31, 0x5D, 0x7D] }

  function ObjectWithArrayPulls(): seq<Pull> {
    [Pull(9, Token(StartObject, 1)), Pull(0, Token(Other, 4)), Pull(0, Token(StartArray, 6)),
     Pull(0, Token(Other, 7)), Pull(0, Token(EndArray, 8)), Pull(0, Token(EndObject, 9)),
     Pull(0, Token(NeedMoreInput, 9))]
  }

  function ObjectWithArrayTokens(): seq<Token> {
    [Token(StartObject, 1), Token(Other, 4), Token(StartArray, 6), Token(Other, 7), Token(EndArray, 8),
     Token(EndObject, 9), Token(NeedMoreInput, 9)]
  }

  lemma ObjectWithArrayLexed()
    ensures Script(9, ObjectWithArrayPulls()) && Tokens(ObjectWithArrayPulls()) == ObjectWithArrayTokens()
    ensures TokensFit(ObjectWithArray(), 9, 0, ObjectWithArrayTokens())
  {
    assert Tokens(ObjectWithArrayPulls()) == ObjectWithArrayTokens();
    assert Script(9, ObjectWithArrayPulls());
    var s, ts := ObjectWithArray(), ObjectWithArrayTokens();
    assert TokensFit(s, 9, 9, ts[6..]);
    assert TokensFit(s, 9, 8, ts[5..]);
    assert TokensFit(s, 9, 7, ts[4..]);
    assert TokensFit(s, 9, 6, ts[3..]);
    assert TokensFit(s, 9, 4, ts[2..]);
    assert TokensFit(s, 9, 1, ts[1..]);
    assert ts[0..] == ts;
  }

  lemma ObjectWithArrayTracked()
    ensures TrackAll(Initial, ObjectWithArrayTokens()) ==
              Trace([Span(1, 9)], Nesting(Root, Root, 1, true), false)
    ensures Units(ObjectWithArray(), [Span(1, 9)]) == [Item(ObjectWithArray())]
  {
    var ts := ObjectWithArrayTokens();
    var done := Nesting(Root, Root, 1, true);
    var inArray := Nesting(Level(1), Level(1), 1, false);
    var inObject := Nesting(Level(1), Root, 1, false);
    assert TrackAll(done, ts[6..]) == Trace([], done, false);
    assert TrackAll(inObject, ts[5..]) == Trace([Span(1, 9)], done, false);
    assert TrackAll(inArray, ts[4..]) == Trace([Span(1, 9)], done, false);
    assert TrackAll(inArray, ts[3..]) == TrackAll(inArray, ts[4..]);
    assert TrackAll(inObject, ts[2..]) == TrackAll(inArray, ts[3..]);
    assert TrackAll(Initial, ts) == TrackAll(inObject, ts[2..]);
    assert ObjectWithArray()[0..9] == ObjectWithArray();
  }

  /** With the array end rule corrected, a single object holding an array is
      emitted whole once its own `}` arrives, and downstream completes. */
  lemma ArrayInsideObjectEmitted(calls: seq<Call>)
    requires calls == [Chunk(ObjectWithArray(), ObjectWithArrayPulls()), Complete]
    ensures Run(Fresh, calls).down == [Item(ObjectWithArray()), Completed]
    ensures Run(Fresh, calls).up == [Request(1)]
  {
    assert [Item(ObjectWithArray())] + [Completed] == [Item(ObjectWithArray()), Completed];
    ObjectWithArrayLexed();
    ObjectWithArrayTracked();
    OneChunkOutcome(calls, ObjectWithArray(), ObjectWithArrayPulls(), ObjectWithArrayTokens(), [Span(1, 9)],
                    Nesting(Root, Root, 1, true), [Item(ObjectWithArray())],
                    [Item(ObjectWithArray()), Completed]);
  }

  // ---- `[{"a":1}`: the producer completes inside the array ----

  /** `[{"a":1}` */
  function OpenArray(): seq<bv8> { [0x5B, 0x7B, 0x22, 0x61, 0x22, 0x3A, 0x31, 0x7D] }

  function OpenArrayPulls(): seq<Pull> {
    [Pull(8, Token(StartArray, 1)), Pull(0, Token(StartObject, 2)), Pull(0, Token(Other, 5)),
     Pull(0, Token(Other, 7)), Pull(0, Token(EndObject, 8)), Pull(0, Token(NeedMoreInput, 8))]
  }

  function OpenArrayTokens(): seq<Token> {
    [Token(StartArray, 1), Token(StartObject, 2), Token(Other, 5), Token(Other, 7), Token(EndObject, 8),
     Token(NeedMoreInput, 8)]
  }

  lemma OpenArrayLexed()
    ensures Script(8, OpenArrayPulls()) && Tokens(OpenArrayPulls()) == OpenArrayTokens()
    ensures TokensFit(OpenArray(), 8, 0, OpenArrayTokens())
  {
    assert Tokens(OpenArrayPulls()) == OpenArrayTokens();
    assert Script(8, OpenArrayPulls());
    var s, ts := OpenArray(), OpenArrayTokens();
    assert TokensFit(s, 8, 8, ts[4..]);
    assert TokensFit(s, 8, 7, ts[3..]);
    assert TokensFit(s, 8, 5, ts[2..]);
    assert TokensFit(s, 8, 1, ts[1..]);
    assert ts[0..] == ts;
  }

  lemma OpenArrayTracked()
    ensures TrackAll(Initial, OpenArrayTokens()) ==
              Trace([Span(2, 8)], Nesting(Root, Level(1), 2, false), false)
    ensures Units(OpenArray(), [Span(2, 8)]) == [Item(ObjectA())]
  {
    assert OpenArray()[1..8] == ObjectA();
  }

  /** A stream that ends before its array closes: the complete object is
      emitted, but downstream is neither completed nor failed. */
  lemma TruncatedArrayNeverCompletes(calls: seq<Call>)
    requires calls == [Chunk(OpenArray(), OpenArrayPulls()), Complete]
    ensures Run(Fresh, calls).down == [Item(ObjectA())]
    ensures Run(Fresh, calls).up == [Request(1)]
  {
    assert [Item(ObjectA())] + [] == [Item(ObjectA())];
    OpenArrayLexed();
    OpenArrayTracked();
    OneChunkOutcome(calls, OpenArray(), OpenArrayPulls(), OpenArrayTokens(), [Span(2, 8)],
                    Nesting(Root, Level(1), 2, false), [Item(ObjectA())], [Item(ObjectA())]);
  }
}

=== FILE: splitting.dfy ===
/**
  What the converter achieves on a stream of chunks whose scripts a real
  lexer could have produced: it emits exactly the text of every root-level
  object, in stream order, no matter where the chunk boundaries fall.  The
  reference it is measured against (`Expected`) tracks the nesting over all
  tokens and slices the complete byte stream by absolute counts, with no
  buffer, no offset and no chunks.
*/
module Splitting {
  import opened Wrappers
  import opened Events
  import opened ByteBuffer
  import opened Nesting
  import opened Converter

  /** The bytes of all chunks, in order. */
  function Stream(calls: seq<Call>): seq<bv8>
    decreases |calls|
  {
    if calls == [] then []
    else (if calls[0].Chunk? then calls[0].bytes else []) + Stream(calls[1..])
  }

  /** Every token the lexer returned across the calls, in order. */
  function AllTokens(calls: seq<Call>): seq<Token>
    decreases |calls|
  {
    if calls == [] then []
    else (if calls[0].Chunk? then Tokens(calls[0].pulls) else []) + AllTokens(calls[1..])
  }

  /** `calls` are chunks of `s` starting at position `fed`, and the tokens
      returned while handling each chunk fit the bytes fed so far, following
      a token with count `last`. */
  predicate Fits(s: seq<bv8>, fed: nat, last: nat, calls: seq<Call>)
    decreases |calls|
  {
    calls == [] ||
    (&& calls[0].Chunk?
     && fed + |calls[0].bytes| <= |s|
     && s[fed..fed + |calls[0].bytes|] == calls[0].bytes
     && TokensFit(s, fed + |calls[0].bytes|, last, Tokens(calls[0].pulls))
     && Fits(s, fed + |calls[0].bytes|, LastCount(last, Tokens(calls[0].pulls)), calls[1..]))
  }

  /** A run of chunks with the scripts a lexer reading their bytes returns. */
  predicate LexerConsistent(calls: seq<Call>) {
    Scripted(calls) && Fits(Stream(calls), 0, 0, calls)
  }

  /** The text of a span, read from the whole stream. */
  function Text(s: seq<bv8>, sp: Span): seq<bv8> {
    if 1 <= sp.start <= sp.end + 1 <= |s| + 1 then s[sp.start - 1..sp.end] else []
  }

  function Units(s: seq<bv8>, spans: seq<Span>): (r: seq<Signal>)
    ensures |r| == |spans|
    decreases |spans|
  {
    if spans == [] then [] else [Item(Text(s, spans[0]))] + Units(s, spans[1..])
  }

  /** Each unit is the text of the span at the same position. */
  lemma {:induction false} UnitsAt(s: seq<bv8>, spans: seq<Span>)
    ensures forall i :: 0 <= i < |spans| ==> Units(s, spans)[i] == Item(Text(s, spans[i]))
    decreases |spans|
  {
    if spans != [] {
      UnitsAt(s, spans[1..]);
    }
  }

  /** The reference output: the text of every root object the tokens close,
      then the syntax error if they end on one. */
  function Expected(s: seq<bv8>, n: Nesting, ts: seq<Token>): seq<Signal> {
    var tr := TrackAll(n, ts);
    Units(s, tr.spans) + (if tr.failed then [Failed(SyntaxError)] else [])
  }

  /** The reference demand: one request per chunk, until the chunk with the
      lexer error, which cancels instead. */
  function ExpectedDemands(n: Nesting, calls: seq<Call>): seq<Demand>
    decreases |calls|
  {
    if calls == [] then []
    else
      var tr := TrackAll(n, if calls[0].Chunk? then Tokens(calls[0].pulls) else []);
      if tr.failed then [Cancel] else [Request(1)] + ExpectedDemands(tr.final, calls[1..])
  }

  /** Where the offset can stand relative to the last token count: at the
      start, right after a `}`, or one separator byte past a `}`. */
  predicate OffsetBehind(offset: nat, s: seq<bv8>, last: nat) {
    || offset == 0
    || (1 <= offset <= last && offset <= |s| && s[offset - 1] == CloseBrace)
    || (2 <= offset <= last + 1 && offset <= |s| + 1 && s[offset - 2] == CloseBrace)
  }

  /** The converter while it is still taking chunks, after `fed` bytes of `s`
      and a last token count `last`: the buffer is the undiscarded suffix of
      the bytes fed, and the pending object's `{` has not been discarded. */
  predicate Inv(c: Converter, s: seq<bv8>, fed: nat, last: nat) {
    && last <= fed <= |s|
    && Window(c.buffer, s[..fed])
    && Pending(c.nesting, s, last)
    && (c.nesting.objectLevel.depth >= 1 ==> c.buffer.offset + 1 <= c.nesting.startOfObject)
    && OffsetBehind(c.buffer.offset, s, last)
    && !c.erred && c.parserOpen && !c.producerCompleted
  }

  lemma {:induction false} UnitsAppend(s: seq<bv8>, a: seq<Span>, b: seq<Span>)
    ensures Units(s, a + b) == Units(s, a) + Units(s, b)
  {
    UnitsAt(s, a + b);
    UnitsAt(s, a);
    UnitsAt(s, b);
    assert forall i :: 0 <= i < |a + b| ==> Units(s, a + b)[i] == (Units(s, a) + Units(s, b))[i];
  }

  /** The reference output of a run is that of its first part followed by
      that of the rest, unless the first part already failed. */
  lemma ExpectedAppend(s: seq<bv8>, n: Nesting, a: seq<Token>, b: seq<Token>)
    ensures Expected(s, n, a + b) ==
              if TrackAll(n, a).failed then Expected(s, n, a)
              else Units(s, TrackAll(n, a).spans) + Expected(s, TrackAll(n, a).final, b)
  {
    TrackAllAppend(n, a, b);
    var ta := TrackAll(n, a);
    if !ta.failed {
      UnitsAppend(s, ta.spans, TrackAll(ta.final, b).spans);
    }
  }

  /** A new root object never starts at or before the current offset: the
      byte before its `{` would be the `}` of the previous object, which JSON
      does not allow. */
  lemma StartAfterOffset(offset: nat, s: seq<bv8>, last: nat, t: Token)
    requires OffsetBehind(offset, s, last)
    requires t.event == StartObject && Shape(s, t) && last <= t.count
    ensures offset + 1 <= t.count
  {
  }

  /** The offset arithmetic of `onEndObjectReached`: when the object's `{`
      is still buffered and its `}` has been appended, the buffer indices
      (start count - offset - 1, end count - offset) lie within the buffered
      bytes, the emitted text is the object's text in the whole stream, and
      the buffer stays a window onto the stream. */
  lemma EmissionReadsStream(b: Buffer, s: seq<bv8>, fed: nat, span: Span)
    requires fed <= |s| && Window(b, s[..fed])
    requires b.offset + 1 <= span.start <= span.end <= fed
    ensures OnEndObjectReached(b, span).thrown.None?
    ensures OnEndObjectReached(b, span).unit == Some(Text(s, span))
    ensures Window(OnEndObjectReached(b, span).buffer, s[..fed])
    ensures OnEndObjectReached(b, span).buffer.offset == b.offset + Dropped(b, span.end - b.offset)
  {
    var e := OnEndObjectReached(b, span);
    WindowSlice(b, s[..fed], span.start - 1, span.end);
    assert s[..fed][span.start - 1..span.end] == s[span.start - 1..span.end];
    RemoveKeepsWindow(b, s[..fed], span.end - b.offset);
    assert e.buffer == Remove(b, span.end - b.offset).value;
  }

  /** Right after a root object's `}`, with nothing pending and the offset
      at or one byte past that `}`, the invariant holds again. */
  lemma InvAfterClose(c: Converter, s: seq<bv8>, fed: nat, t: Token)
    requires 1 <= t.count <= fed <= |s| && s[t.count - 1] == CloseBrace
    requires Window(c.buffer, s[..fed])
    requires c.buffer.offset == t.count || c.buffer.offset == t.count + 1
    requires c.nesting.objectLevel.depth == 0
    requires !c.erred && c.parserOpen && !c.producerCompleted
    ensures Inv(c, s, fed, t.count)
  {
    assert OffsetBehind(c.buffer.offset, s, t.count);
  }

  /** An object end that closes the root object. */
  lemma CloseFollowsTrack(c: Converter, s: seq<bv8>, fed: nat, last: nat, t: Token)
    requires Inv(c, s, fed, last)
    requires last <= t.count <= fed && Shape(s, t)
    requires Track(c.nesting, t).closed.Some?
    ensures Handle(c, t).thrown.None?
    ensures Handle(c, t).down == [Item(Text(s, Track(c.nesting, t).closed.value))]
    ensures Handle(c, t).state.nesting == Track(c.nesting, t).next
    ensures Inv(Handle(c, t).state, s, fed, t.count)
  {
    var tr := Track(c.nesting, t);
    var span := tr.closed.value;
    assert span == Span(c.nesting.startOfObject, t.count);
    EmissionReadsStream(c.buffer, s, fed, span);
    var e := OnEndObjectReached(c.buffer, span);
    var next := c.(nesting := tr.next, buffer := e.buffer);
    assert Handle(c, t) == Reaction(next, [Item(e.unit.value)], [], None);
    assert e.buffer.offset == t.count || e.buffer.offset == t.count + 1;
    InvAfterClose(next, s, fed, t);
  }

  /** A token that closes no root object. */
  lemma StepFollowsTrack(c: Converter, s: seq<bv8>, fed: nat, last: nat, t: Token)
    requires Inv(c, s, fed, last)
    requires last <= t.count <= fed && Shape(s, t)
    requires Track(c.nesting, t).closed.None?
    ensures Handle(c, t).thrown.None?
    ensures Handle(c, t).down == if t.event == Error then [Failed(SyntaxError)] else []
    ensures t.event != Error ==>
              Handle(c, t).state.nesting == Track(c.nesting, t).next && Inv(Handle(c, t).state, s, fed, t.count)
  {
    if t.event == StartObject && c.nesting.objectLevel.IsRoot() && !c.nesting.parsingCompleted {
      StartAfterOffset(c.buffer.offset, s, last, t);
    }
  }

  /** One token: the converter does what the nesting step says, emits the
      closed object's text as read from the whole stream, and keeps `Inv`. */
  lemma HandleFollowsTrack(c: Converter, s: seq<bv8>, fed: nat, last: nat, t: Token)
    requires Inv(c, s, fed, last)
    requires last <= t.count <= fed && Shape(s, t)
    ensures Handle(c, t).thrown.None?
    ensures Handle(c, t).down ==
              Units(s, Closed(Track(c.nesting, t).closed))
              + (if Track(c.nesting, t).failed then [Failed(SyntaxError)] else [])
    ensures Handle(c, t).state.erred == Track(c.nesting, t).failed
    ensures !Track(c.nesting, t).failed ==>
              Handle(c, t).state.nesting == Track(c.nesting, t).next && Inv(Handle(c, t).state, s, fed, t.count)
  {
    if Track(c.nesting, t).closed.Some? {
      CloseFollowsTrack(c, s, fed, last, t);
    } else {
      StepFollowsTrack(c, s, fed, last, t);
    }
  }

  /** `r` is what the converter should answer to tokens `ts` from nesting
      `n`, after `fed` bytes of `s` and a last count `last`. */
  predicate Matches(r: Reaction, s: seq<bv8>, fed: nat, last: nat, n: Nesting, ts: seq<Token>) {
    && r.thrown.None?
    && r.down == Expected(s, n, ts)
    && r.state.erred == TrackAll(n, ts).failed
    && (!TrackAll(n, ts).failed ==>
          && r.state.nesting == TrackAll(n, ts).final
          && Inv(r.state, s, fed, LastCount(last, ts)))
  }

  /** A token that neither fails nor stops the loop, followed by the rest. */
  lemma MatchesCons(h: Reaction, tail: Reaction, s: seq<bv8>, fed: nat, last: nat, n: Nesting, t: Token, rest: seq<Token>)
    requires !Track(n, t).failed
    requires h.thrown.None? && h.down == Units(s, Closed(Track(n, t).closed))
    requires Matches(tail, s, fed, t.count, Track(n, t).next, rest)
    ensures Matches(Then(h, tail), s, fed, last, n, [t] + rest)
  {
    var ts := [t] + rest;
    assert ts[0] == t && ts[1..] == rest;
    var tr := Track(n, t);
    assert TrackAll(n, ts) == Trace(Closed(tr.closed) + TrackAll(tr.next, rest).spans, TrackAll(tr.next, rest).final, TrackAll(tr.next, rest).failed);
    UnitsAppend(s, Closed(tr.closed), TrackAll(tr.next, rest).spans);
    assert LastCount(last, ts) == LastCount(t.count, rest);
  }

  /** One chunk's loop: the converter's output is the reference output of the
      chunk's tokens. */
  lemma {:induction false} PumpFollowsTrack(c: Converter, s: seq<bv8>, fed: nat, last: nat, remaining: nat, pulls: seq<Pull>)
    requires Script(remaining, pulls)
    requires Inv(c, s, fed, last)
    requires TokensFit(s, fed, last, Tokens(pulls))
    ensures Matches(Pump(c, remaining, pulls), s, fed, last, c.nesting, Tokens(pulls))
    decreases |pulls|
  {
    var p := pulls[0];
    var ts := Tokens(pulls);
    assert ts == [p.token] + Tokens(pulls[1..]);
    var unfed := Unfed(remaining, p);
    HandleFollowsTrack(c, s, fed, last, p.token);
    var h := Handle(c, p.token);
    var tr := Track(c.nesting, p.token);
    if tr.failed {
      assert Pump(c, remaining, pulls) == h;
      assert TrackAll(c.nesting, ts) == Trace([], c.nesting, true);
    } else if Stops(unfed, p.token) {
      assert Pump(c, remaining, pulls) == h;
      assert |pulls| == 1 && ts == [p.token] + [];
      assert Matches(Quiet(h.state), s, fed, p.token.count, tr.next, []);
      MatchesCons(h, Quiet(h.state), s, fed, last, c.nesting, p.token, []);
      assert Then(h, Quiet(h.state)) == h;
    } else {
      assert Pump(c, remaining, pulls) == Then(h, Pump(h.state, unfed, pulls[1..]));
      PumpFollowsTrack(h.state, s, fed, p.token.count, unfed, pulls[1..]);
      MatchesCons(h, Pump(h.state, unfed, pulls[1..]), s, fed, last, c.nesting, p.token, Tokens(pulls[1..]));
    }
  }

  /** A step that ignores chunks once erred, as `onNext` does. */
  ghost predicate IgnoresWhenErred(step: (Converter, Call) -> Reaction) {
    forall k: Converter, call: Call :: k.erred && call.Chunk? ==> step(k, call) == Quiet(k)
  }

  lemma ApplyIgnoresWhenErred()
    ensures IgnoresWhenErred(Apply)
  {
  }

  /** An erred converter ignores any further chunks. */
  lemma {:induction false} ErredIgnoresChunks(step: (Converter, Call) -> Reaction, c: Converter, calls: seq<Call>)
    requires IgnoresWhenErred(step)
    requires c.erred
    requires forall call <- calls :: call.Chunk?
    ensures Replay(step, c, calls) == Quiet(c)
    decreases |calls|
  {
    if calls != [] {
      assert step(c, calls[0]) == Quiet(c);
      ErredIgnoresChunks(step, c, calls[1..]);
    }
  }

  /** A failure reported by the publisher is passed downstream once; the
      chunks that still arrive afterwards are ignored and ask for nothing. */
  lemma FailureIsFinal(c: Converter, cause: Throwable, calls: seq<Call>)
    requires c.parserOpen
    requires forall call <- calls :: call.Chunk?
    ensures Run(c, [Fail(cause)] + calls).thrown.None?
    ensures Run(c, [Fail(cause)] + calls).down == [Failed(cause)]
    ensures Run(c, [Fail(cause)] + calls).up == []
    ensures Run(c, [Fail(cause)] + calls).state.erred
  {
    var all := [Fail(cause)] + calls;
    assert all[0] == Fail(cause) && all[1..] == calls;
    var first := OnError(c, cause);
    ApplyIgnoresWhenErred();
    ErredIgnoresChunks(Apply, first.state, calls);
    assert Run(c, all) == Then(first, Quiet(first.state));
  }

  /** Appending a chunk of `s` keeps the invariant, with more bytes fed. */
  lemma AppendKeepsInv(c: Converter, s: seq<bv8>, fed: nat, last: nat, chunk: seq<bv8>)
    requires Inv(c, s, fed, last)
    requires fed + |chunk| <= |s| && s[fed..fed + |chunk|] == chunk
    ensures Inv(c.(buffer := Append(c.buffer, chunk)), s, fed + |chunk|, last)
  {
    AppendExtendsWindow(c.buffer, s[..fed], chunk);
    assert s[..fed] + chunk == s[..fed + |chunk|];
  }

  /** `r` is what the converter should answer to the chunk calls `calls`
      from a state with nesting `n`. */
  predicate RunMatches(r: Reaction, s: seq<bv8>, n: Nesting, calls: seq<Call>) {
    && r.thrown.None?
    && r.down == Expected(s, n, AllTokens(calls))
    && r.up == ExpectedDemands(n, calls)
    && r.state.erred == TrackAll(n, AllTokens(calls)).failed
    && (!r.state.erred ==>
          && r.state.nesting == TrackAll(n, AllTokens(calls)).final
          && r.state.parserOpen && !r.state.producerCompleted)
  }

  /** The tokens of a run of calls: those of the first, then the rest. */
  lemma AllTokensCons(calls: seq<Call>)
    requires calls != [] && calls[0].Chunk?
    ensures AllTokens(calls) == Tokens(calls[0].pulls) + AllTokens(calls[1..])
  {
  }

  /** A first chunk without error, followed by the rest of the run. */
  lemma RunMatchesCons(first: Reaction, tail: Reaction, s: seq<bv8>, n: Nesting, calls: seq<Call>)
    requires calls != [] && calls[0].Chunk?
    requires !TrackAll(n, Tokens(calls[0].pulls)).failed
    requires first.thrown.None?
    requires first.down == Expected(s, n, Tokens(calls[0].pulls))
    requires first.up == [Request(1)]
    requires first.state.nesting == TrackAll(n, Tokens(calls[0].pulls)).final
    requires RunMatches(tail, s, first.state.nesting, calls[1..])
    ensures RunMatches(Then(first, tail), s, n, calls)
  {
    var ts := Tokens(calls[0].pulls);
    var rest := AllTokens(calls[1..]);
    AllTokensCons(calls);
    TrackAllAppend(n, ts, rest);
    var ta := TrackAll(n, ts);
    assert ExpectedDemands(n, calls) == [Request(1)] + ExpectedDemands(ta.final, calls[1..]);
    assert Expected(s, n, ts + rest) == Units(s, ta.spans) + Expected(s, ta.final, rest) by {
      ExpectedAppend(s, n, ts, rest);
    }
    assert Expected(s, n, ts) == Units(s, ta.spans);
  }

  /** One chunk of `s` handled from a state satisfying the invariant: the
      reference output for its tokens, and one request, or a cancel when its
      tokens hold a syntax error. */
  lemma ApplyFollowsTrack(c: Converter, s: seq<bv8>, fed: nat, last: nat, call: Call)
    requires Inv(c, s, fed, last)
    requires call.Chunk? && Script(|call.bytes|, call.pulls)
    requires fed + |call.bytes| <= |s| && s[fed..fed + |call.bytes|] == call.bytes
    requires TokensFit(s, fed + |call.bytes|, last, Tokens(call.pulls))
    ensures Matches(Apply(c, call), s, fed + |call.bytes|, last, c.nesting, Tokens(call.pulls))
    ensures Apply(c, call).up == if TrackAll(c.nesting, Tokens(call.pulls)).failed then [Cancel] else [Request(1)]
  {
    var fed' := fed + |call.bytes|;
    var appended := c.(buffer := Append(c.buffer, call.bytes));
    AppendKeepsInv(c, s, fed, last, call.bytes);
    PumpFollowsTrack(appended, s, fed', last, |call.bytes|, call.pulls);
    var pumped := Pump(appended, |call.bytes|, call.pulls);
    assert HandleNextBytes(c, call.bytes, call.pulls) == pumped;
    if TrackAll(c.nesting, Tokens(call.pulls)).failed {
      assert Apply(c, call) == pumped.(up := [Cancel]);
    } else {
      assert Apply(c, call) == pumped.(up := [Request(1)]);
    }
  }

  /** `call` is a chunk of `s` starting at position `fed`, with a script
      whose tokens fit the stream after a token with count `last`. */
  predicate ChunkFits(s: seq<bv8>, fed: nat, last: nat, call: Call) {
    && call.Chunk? && Script(|call.bytes|, call.pulls)
    && fed + |call.bytes| <= |s| && s[fed..fed + |call.bytes|] == call.bytes
    && TokensFit(s, fed + |call.bytes|, last, Tokens(call.pulls))
  }

  /** `step` answers every fitting chunk of `s` as `ApplyFollowsTrack` says
      `onNext` does. */
  ghost predicate ChunksFollowTrack(step: (Converter, Call) -> Reaction, s: seq<bv8>) {
    forall k: Converter, fed: nat, last: nat, call: Call {:trigger Inv(k, s, fed, last), ChunkFits(s, fed, last, call)} ::
      Inv(k, s, fed, last) && ChunkFits(s, fed, last, call) ==>
        && Matches(step(k, call), s, fed + |call.bytes|, last, k.nesting, Tokens(call.pulls))
        && step(k, call).up == if TrackAll(k.nesting, Tokens(call.pulls)).failed then [Cancel] else [Request(1)]
  }

  lemma ApplyChunksFollowTrack(s: seq<bv8>)
    ensures ChunksFollowTrack(Apply, s)
  {
    forall k: Converter, fed: nat, last: nat, call: Call | Inv(k, s, fed, last) && ChunkFits(s, fed, last, call)
      ensures Matches(Apply(k, call), s, fed + |call.bytes|, last, k.nesting, Tokens(call.pulls))
      ensures Apply(k, call).up == if TrackAll(k.nesting, Tokens(call.pulls)).failed then [Cancel] else [Request(1)]
    {
      ApplyFollowsTrack(k, s, fed, last, call);
    }
  }

  /** The first chunk of a run, answered as `ChunksFollowTrack` says. */
  lemma ReplayFirst(step: (Converter, Call) -> Reaction, c: Converter, s: seq<bv8>,
                    fed: nat, last: nat, calls: seq<Call>)
    requires ChunksFollowTrack(step, s)
    requires Inv(c, s, fed, last)
    requires calls != [] && Scripted(calls)
    requires Fits(s, fed, last, calls)
    ensures calls[0].Chunk?
    ensures Matches(step(c, calls[0]), s, fed + |calls[0].bytes|, last, c.nesting, Tokens(calls[0].pulls))
    ensures step(c, calls[0]).up == if TrackAll(c.nesting, Tokens(calls[0].pulls)).failed then [Cancel] else [Request(1)]
    ensures Replay(step, c, calls) == Then(step(c, calls[0]), Replay(step, step(c, calls[0]).state, calls[1..]))
    ensures Scripted(calls[1..])
    ensures Fits(s, fed + |calls[0].bytes|, LastCount(last, Tokens(calls[0].pulls)), calls[1..])
  {
    assert ChunkFits(s, fed, last, calls[0]);
  }

  /** The whole run from any state satisfying the invariant, for any step
      that answers chunks as `onNext` does. */
  lemma {:induction false} ReplayFollowsTrack(step: (Converter, Call) -> Reaction, c: Converter, s: seq<bv8>,
                                              fed: nat, last: nat, calls: seq<Call>)
    requires ChunksFollowTrack(step, s) && IgnoresWhenErred(step)
    requires Inv(c, s, fed, last)
    requires Scripted(calls)
    requires Fits(s, fed, last, calls)
    ensures RunMatches(Replay(step, c, calls), s, c.nesting, calls)
    decreases |calls|, 1
  {
    if calls != [] {
      assert calls[0].Chunk?;
      if TrackAll(c.nesting, Tokens(calls[0].pulls)).failed {
        ReplayAfterError(step, c, s, fed, last, calls);
      } else {
        ReplayAfterSuccess(step, c, s, fed, last, calls);
      }
    }
  }

  /** A run whose first chunk ends on a syntax error: the rest is ignored. */
  lemma ReplayAfterError(step: (Converter, Call) -> Reaction, c: Converter, s: seq<bv8>,
                         fed: nat, last: nat, calls: seq<Call>)
    requires ChunksFollowTrack(step, s) && IgnoresWhenErred(step)
    requires Inv(c, s, fed, last)
    requires Scripted(calls)
    requires Fits(s, fed, last, calls)
    requires calls != [] && calls[0].Chunk? && TrackAll(c.nesting, Tokens(calls[0].pulls)).failed
    ensures RunMatches(Replay(step, c, calls), s, c.nesting, calls)
  {
    FitsAllChunks(s, fed, last, calls);
    ReplayFirst(step, c, s, fed, last, calls);
    ReplayErred(step, step(c, calls[0]), s, c.nesting, calls);
  }

  /** The rest of a run after a chunk that ended on a syntax error. */
  lemma ReplayErred(step: (Converter, Call) -> Reaction, first: Reaction, s: seq<bv8>, n: Nesting, calls: seq<Call>)
    requires IgnoresWhenErred(step)
    requires calls != [] && forall call <- calls :: call.Chunk?
    requires TrackAll(n, Tokens(calls[0].pulls)).failed
    requires first.thrown.None? && first.state.erred
    requires first.down == Expected(s, n, Tokens(calls[0].pulls))
    requires first.up == [Cancel]
    ensures RunMatches(Then(first, Replay(step, first.state, calls[1..])), s, n, calls)
  {
    assert forall call <- calls[1..] :: call.Chunk?;
    ErredIgnoresChunks(step, first.state, calls[1..]);
    var ts := Tokens(calls[0].pulls);
    var rest := AllTokens(calls[1..]);
    AllTokensCons(calls);
    ExpectedAppend(s, n, ts, rest);
    TrackAllAppend(n, ts, rest);
    assert ExpectedDemands(n, calls) == [Cancel];
    assert Then(first, Quiet(first.state)) == first.(down := first.down + [], up := first.up + []);
  }

  /** A run whose first chunk has no syntax error: its answer, then the
      rest of the run from the state it leaves. */
  lemma {:induction false} ReplayAfterSuccess(step: (Converter, Call) -> Reaction, c: Converter, s: seq<bv8>,
                                              fed: nat, last: nat, calls: seq<Call>)
    requires ChunksFollowTrack(step, s) && IgnoresWhenErred(step)
    requires Inv(c, s, fed, last)
    requires Scripted(calls)
    requires Fits(s, fed, last, calls)
    requires calls != [] && calls[0].Chunk? && !TrackAll(c.nesting, Tokens(calls[0].pulls)).failed
    ensures RunMatches(Replay(step, c, calls), s, c.nesting, calls)
    decreases |calls|, 0
  {
    ReplayFirst(step, c, s, fed, last, calls);
    var first := step(c, calls[0]);
    ReplayFollowsTrack(step, first.state, s, fed + |calls[0].bytes|, LastCount(last, Tokens(calls[0].pulls)), calls[1..]);
    RunMatchesCons(first, Replay(step, first.state, calls[1..]), s, c.nesting, calls);
  }

  /** The whole run from any state satisfying the invariant. */
  lemma RunFollowsTrack(c: Converter, s: seq<bv8>, fed: nat, last: nat, calls: seq<Call>)
    requires Inv(c, s, fed, last)
    requires Scripted(calls)
    requires Fits(s, fed, last, calls)
    ensures RunMatches(Run(c, calls), s, c.nesting, calls)
    ensures Run(c, calls).state.erred <==>
              exists i :: 0 <= i < |AllTokens(calls)| && AllTokens(calls)[i].event == Error
  {
    ApplyChunksFollowTrack(s);
    ApplyIgnoresWhenErred();
    ReplayFollowsTrack(Apply, c, s, fed, last, calls);
    assert Run(c, calls).state.erred == TrackAll(c.nesting, AllTokens(calls)).failed;
    TrackAllFailsExactlyOnError(c.nesting, AllTokens(calls));
  }

  lemma {:induction false} FitsAllChunks(s: seq<bv8>, fed: nat, last: nat, calls: seq<Call>)
    requires Fits(s, fed, last, calls)
    ensures forall call <- calls :: call.Chunk?
    decreases |calls|
  {
    if calls != [] {
      FitsAllChunks(s, fed + |calls[0].bytes|, LastCount(last, Tokens(calls[0].pulls)), calls[1..]);
    }
  }

  /** Token runs that fit can be joined. */
  lemma {:induction false} TokensFitAppend(s: seq<bv8>, bound: nat, last: nat, a: seq<Token>, b: seq<Token>)
    requires TokensFit(s, bound, last, a)
    requires TokensFit(s, bound, LastCount(last, a), b)
    ensures TokensFit(s, bound, last, a + b)
    decreases |a|
  {
    if a == [] {
      assert a + b == b;
    } else {
      assert (a + b)[0] == a[0] && (a + b)[1..] == a[1..] + b;
      TokensFitAppend(s, bound, a[0].count, a[1..], b);
    }
  }

  /** Tokens that fit the bytes fed so far fit any later point too. */
  lemma {:induction false} TokensFitWeaken(s: seq<bv8>, bound: nat, bound': nat, last: nat, ts: seq<Token>)
    requires bound <= bound'
    requires TokensFit(s, bound, last, ts)
    ensures TokensFit(s, bound', last, ts)
    decreases |ts|
  {
    if ts != [] {
      TokensFitWeaken(s, bound, bound', ts[0].count, ts[1..]);
    }
  }

  /** The tokens of a whole run of fitting chunks fit the whole stream. */
  lemma {:induction false} FitsTokens(s: seq<bv8>, fed: nat, last: nat, calls: seq<Call>)
    requires Fits(s, fed, last, calls)
    ensures TokensFit(s, |s|, last, AllTokens(calls))
    decreases |calls|
  {
    if calls != [] {
      var ts := Tokens(calls[0].pulls);
      var fed' := fed + |calls[0].bytes|;
      AllTokensCons(calls);
      FitsTokens(s, fed', LastCount(last, ts), calls[1..]);
      TokensFitWeaken(s, fed', |s|, last, ts);
      TokensFitAppend(s, |s|, last, ts, AllTokens(calls[1..]));
    }
  }

  /** From a fresh converter, a lexer-consistent run of chunks is answered
      with the text of every root object its tokens close, read from the whole
      stream, then the syntax error if there is one; upstream sees one
      request per chunk, or a cancel for the chunk holding the error. */
  lemma SplitterEmitsRootObjects(calls: seq<Call>)
    requires LexerConsistent(calls)
    ensures Run(Fresh, calls).thrown.None?
    ensures Run(Fresh, calls).down == Expected(Stream(calls), Initial, AllTokens(calls))
    ensures Run(Fresh, calls).up == ExpectedDemands(Initial, calls)
    ensures Run(Fresh, calls).state.erred == TrackAll(Initial, AllTokens(calls)).failed
  {
    assert Window(Empty, Stream(calls)[..0]);
    RunFollowsTrack(Fresh, Stream(calls), 0, 0, calls);
  }

  /** Every emitted text runs from a root object's `{` to its `}`, and the
      texts follow one another in stream order without overlapping; a syntax
      error, if any, is the one signal after them. */
  lemma UnitsAreRootObjects(calls: seq<Call>)
    requires LexerConsistent(calls)
    ensures Ordered(TrackAll(Initial, AllTokens(calls)).spans)
    ensures forall sp <- TrackAll(Initial, AllTokens(calls)).spans :: Delimited(Stream(calls), sp)
    ensures |Run(Fresh, calls).down| ==
              |TrackAll(Initial, AllTokens(calls)).spans| + (if Run(Fresh, calls).state.erred then 1 else 0)
    ensures Run(Fresh, calls).down[..|TrackAll(Initial, AllTokens(calls)).spans|] ==
              Units(Stream(calls), TrackAll(Initial, AllTokens(calls)).spans)
    ensures Run(Fresh, calls).state.erred ==>
              Run(Fresh, calls).down[|TrackAll(Initial, AllTokens(calls)).spans|] == Failed(SyntaxError)
  {
    SplitterEmitsRootObjects(calls);
    FitsTokens(Stream(calls), 0, 0, calls);
    SpansDelimited(Initial, Stream(calls), |Stream(calls)|, 0, AllTokens(calls));
  }

  /** Where the chunk boundaries fall does not matter: two chunkings of the
      same stream whose lexer reports the same structural tokens are answered
      with the same signals downstream. */
  lemma ChunkBoundariesDoNotMatter(a: seq<Call>, b: seq<Call>)
    requires LexerConsistent(a) && LexerConsistent(b)
    requires Stream(a) == Stream(b)
    requires Structural(AllTokens(a)) == Structural(AllTokens(b))
    ensures Run(Fresh, a).down == Run(Fresh, b).down
  {
    SplitterEmitsRootObjects(a);
    SplitterEmitsRootObjects(b);
    TrackAllStructural(Initial, AllTokens(a));
    TrackAllStructural(Initial, AllTokens(b));
  }

  /** Replaying two lists of calls one after the other. */
  lemma {:induction false} ReplayAppend(step: (Converter, Call) -> Reaction, c: Converter, a: seq<Call>, b: seq<Call>)
    ensures Replay(step, c, a + b) ==
              if Replay(step, c, a).thrown.Some? then Replay(step, c, a)
              else Then(Replay(step, c, a), Replay(step, Replay(step, c, a).state, b))
    decreases |a|
  {
    if a == [] {
      assert a + b == b;
    } else {
      var first := step(c, a[0]);
      assert (a + b)[0] == a[0] && (a + b)[1..] == a[1..] + b;
      assert Replay(step, c, a + b) ==
               if first.thrown.Some? then first else Then(first, Replay(step, first.state, a[1..] + b));
      if first.thrown.None? {
        ReplayAppend(step, first.state, a[1..], b);
        var rest := Replay(step, first.state, a[1..]);
        assert Replay(step, c, a) == Then(first, rest);
        if rest.thrown.None? {
          ThenAssoc(first, rest, Replay(step, rest.state, b));
        }
      }
    }
  }

  /** Signals of three reactions in a row, grouped either way. */
  lemma ThenAssoc(x: Reaction, y: Reaction, z: Reaction)
    ensures Then(x, Then(y, z)) == Then(Then(x, y), z)
  {
    assert x.down + (y.down + z.down) == (x.down + y.down) + z.down;
    assert x.up + (y.up + z.up) == (x.up + y.up) + z.up;
  }

  /** Running two lists of calls one after the other. */
  lemma RunAppend(c: Converter, a: seq<Call>, b: seq<Call>)
    ensures Run(c, a + b) ==
              if Run(c, a).thrown.Some? then Run(c, a)
              else Then(Run(c, a), Run(Run(c, a).state, b))
  {
    ReplayAppend(Apply, c, a, b);
  }

  /** The producer's completion after a run that threw nothing: downstream
      completes exactly when parsing completed without an error. */
  lemma CompleteStep(c: Converter)
    requires c.erred || (c.parserOpen && !c.producerCompleted)
    ensures Run(c, [Complete]).thrown.None?
    ensures Run(c, [Complete]).up == []
    ensures Run(c, [Complete]).down == if !c.erred && c.nesting.parsingCompleted then [Completed] else []
  {
    var o := OnComplete(c);
    assert Run(c, [Complete]) == Then(o, Quiet(o.state));
  }

  /** When the producer completes after a lexer-consistent run, downstream
      completes exactly when parsing completed without a syntax error; a
      truncated stream gets neither completion nor error. */
  lemma CompletionOnlyAfterParsing(calls: seq<Call>)
    requires LexerConsistent(calls)
    ensures Run(Fresh, calls + [Complete]).thrown.None?
    ensures Run(Fresh, calls + [Complete]).up == ExpectedDemands(Initial, calls)
    ensures Run(Fresh, calls + [Complete]).down ==
              Expected(Stream(calls), Initial, AllTokens(calls))
              + (if !TrackAll(Initial, AllTokens(calls)).failed && TrackAll(Initial, AllTokens(calls)).final.parsingCompleted
                 then [Completed] else [])
    ensures !TrackAll(Initial, AllTokens(calls)).failed && !TrackAll(Initial, AllTokens(calls)).final.parsingCompleted ==>
              forall sig <- Run(Fresh, calls + [Complete]).down :: sig.Item?
  {
    RunFollowsTrack(Fresh, Stream(calls), 0, 0, calls);
    var r := Run(Fresh, calls);
    var tr := TrackAll(Initial, AllTokens(calls));
    assert RunMatches(r, Stream(calls), Initial, calls);
    CompleteStep(r.state);
    RunAppend(Fresh, calls, [Complete]);
    assert Run(Fresh, calls + [Complete]) == Then(r, Run(r.state, [Complete]));
    if !tr.failed && !tr.final.parsingCompleted {
      assert Run(Fresh, calls + [Complete]).down == Units(Stream(calls), tr.spans) + [];
      UnitsAt(Stream(calls), tr.spans);
    }
  }
}

=== FILE: wrappers.dfy ===
/** The optional value and the value-or-exception result used across the model. */
module Wrappers {

  /** An optional value, standing in for a Java reference that may be null. */
  datatype Option<+T> = None | Some(value: T)

  /** Either a value or the exception a Java library call throws instead. */
  datatype Result<+T, +E> = Success(value: T) | Failure(error: E)
}
